=== FILE: README.md ===
# Micromegas raw-data evaluation: BCO matching, peak finding and event aggregation

This project models, in Dafny, the per-event logic of
`MicromegasRawDataEvaluation` from the sPHENIX offline software. It covers the
per-packet tagger collection, the greedy per-FEE matching of FEE clock
values (FEE BCO) to Level-1 trigger clock values (LVL1 BCO), the waveform scan
that emits samples and picks the peak, the signal/noise classification of the
peak, and the ordering of the event's samples and waveforms by LVL1 clock
through `std::multimap`. It also models the small helpers `get_bco_diff`,
`Waveform::copy_from` and `Container::Reset`.

Modules:

- `Ints`: the fixed-width unsigned types and the C++ narrowing casts. Each cast is a reduction modulo 2^n.
- `Bco`: `get_bco_diff` and the matching tolerance of 10.
- `Records`: the tagger, sample and waveform records, `copy_from`, and the container with `Reset`.
- `Taggers`: the tagger loop. Every row can become a tagger record. The BCO of every LVL1 row goes to the candidate list.
- `Matcher`: the per-FEE anchor cache, the per-packet candidate queues, and the three-way match decision (reuse, pop, orphan). It also holds the matcher run over a sequence of occurrences.
- `Orphans`: the per-packet set of reported (FEE, FEE clock) pairs.
- `Peak`: the first-occurrence strict-maximum scan over non-sentinel ADC values, and the samples it emits.
- `Multimap`: a `std::multimap` as the sequence of its entries in iteration order. `emplace` inserts at the upper bound of the key.
- `Evaluation`: one waveform row, one packet, the packet loop, and `process_event`.
- `Bookkeeping`: the orphan reports of a whole packet and the waveform count per LVL1 clock over a packet, the packet loop and an event.

Behaviours the model keeps exactly as the code has them:

- The anchor cache is read through `operator[]`, so a FEE never seen reads as (0, 0). A first FEE clock below 10 therefore reuses LVL1 clock 0 without touching the queue.
- Queues and the orphan set are created afresh for every packet, not every event. The anchor cache and the waveform count per LVL1 clock persist across events.
- The orphan set is only consulted, and only grows, when the run is verbose. The `Verbosity() && insert(...)` test short-circuits.
- The running peak starts as a default sample with ADC 0. A waveform with no valid ADC value above 0 is therefore the projection of an all-zero sample. Its LVL1 clock is 0, so it is filed under key 0 whatever the row was matched to. Its classification still uses the channel's own pedestal and rms.
- A waveform is classified with the calibration pedestal and rms of its channel, not with the fields of the peak sample.
- Events of type 8 or above are discarded before the container is reset.
- The waveform count per LVL1 clock (`m_bco_map`) goes up once per accepted waveform row, not once per sample.
- Samples are emitted into the sample multimap whenever sample or waveform evaluation is on. They are copied to the container only when sample evaluation is on.

The packet decoder is replaced by decoded rows. A `TaggerRow` or `WaveformRow` holds the raw integer columns. The ADC value the decoder returns for sample index `i` is the function field `adcAt(i)`. The channel mapping and the calibration are the function fields of `Evaluation.Services`. The constants defined in `MicromegasDefs.h` are fields of `Evaluation.Config`: the packet id list, the channel count per FEE and the ADC sentinel. So are the signal thresholds. `MicromegasDefs.h` is not part of this model.

## Model

| member | source | states |
|---|---|---|
| Bco.BcoDiff | offline/packages/micromegas/MicromegasRawDataEvaluation.cc:57-60 | the distance is what must be added to the smaller value to reach the larger, and it is a valid 32-bit value (no underflow) |
| Bco.BcoDiffIsAbs | offline/packages/micromegas/MicromegasRawDataEvaluation.cc:58-60 | the distance equals the mathematical absolute difference |
| Bco.BcoDiffSymmetric | offline/packages/micromegas/MicromegasRawDataEvaluation.cc:58-60 | the distance does not depend on the argument order |
| Bco.BcoDiffZeroIff | offline/packages/micromegas/MicromegasRawDataEvaluation.cc:58-60 | the distance is 0 exactly when the two clocks are equal |
| Records.CopyFrom | offline/packages/micromegas/MicromegasRawDataEvaluation.cc:64-83 | the waveform takes the sample's index as `sampleMax`, its ADC as `adcMax`, and its clocks unchanged. `copy_from` does not set `is_signal`, which keeps its default, taken as false. |
| Records.CopyFromRoundTrip | offline/packages/micromegas/MicromegasRawDataEvaluation.cc:64-83 | the projection loses only the masked clock: the sample is recovered from the waveform when its masked clock is consistent |
| Records.Reset | offline/packages/micromegas/MicromegasRawDataEvaluation.cc:85-91 | samples, waveforms and taggers are all empty afterwards |
| Records.ResetForgets | offline/packages/micromegas/MicromegasRawDataEvaluation.cc:85-91 | the reset container does not depend on the previous contents, and resetting twice is resetting once |
| Ints.ToU16 | offline/packages/micromegas/MicromegasRawDataEvaluation.cc:162 | the uint16 cast keeps in-range values and otherwise reduces modulo 2^16 |
| Ints.Low20 | offline/packages/micromegas/MicromegasRawDataEvaluation.cc:246 | the masked clock is below 2^20 and congruent to the full clock modulo 2^20 |
| Taggers.MakeTagger | offline/packages/micromegas/MicromegasRawDataEvaluation.cc:160-168 | the record carries the packet id, and every column is its C++ cast: tagger type to 16 bits, the LVL1 and ENDAT flags to 8, the two BCOs to 64, the two counts to 32. An in-range BCO or LVL1 flag is kept unchanged. |
| Taggers.Collect | offline/packages/micromegas/MicromegasRawDataEvaluation.cc:155-180 | with tagger evaluation, the diagnostic list is every row's record in table order, LVL1 or not. With sample or waveform evaluation, the candidate list is the BCOs of exactly the LVL1 rows in table order. Otherwise each list is empty. |
| Taggers.CandidatesComeFromLvl1Rows | offline/packages/micromegas/MicromegasRawDataEvaluation.cc:175-179 | every candidate LVL1 clock is the BCO of some LVL1 row of the table |
| Matcher.AssignedBco | offline/packages/micromegas/MicromegasRawDataEvaluation.cc:234-236 | an orphan carries LVL1 clock 0, a matched sample carries the matched clock |
| Matcher.Match | offline/packages/micromegas/MicromegasRawDataEvaluation.cc:238-293 | within tolerance of the anchor, the anchored LVL1 clock is reused and cache and queues are unchanged. Otherwise, with a candidate, the queue front (queue seeded with the packet's LVL1 list) is assigned, becomes the new anchor with this FEE clock, and is removed. Otherwise the occurrence is an orphan, the anchor is kept and the queue is empty. Other FEEs' anchors and queues never change. |
| Matcher.QueueShrinksOnlyOnPop | offline/packages/micromegas/MicromegasRawDataEvaluation.cc:250-281 | a FEE's queue loses exactly one entry on a pop and none otherwise |
| Matcher.MatchConsumesFront | offline/packages/micromegas/MicromegasRawDataEvaluation.cc:273-280 | one match removes at most the front of a FEE's queue, and the removed value is the one assigned |
| Matcher.ConsumedThenRemaining | offline/packages/micromegas/MicromegasRawDataEvaluation.cc:250-281 | over any sequence of occurrences, what a FEE popped followed by what is left is exactly the queue it started with |
| Matcher.PacketConsumesPrefix | offline/packages/micromegas/MicromegasRawDataEvaluation.cc:205-281 | starting a packet with no queues, each FEE consumes an in-order prefix of the LVL1 list and its queue holds the rest |
| Matcher.MatchIsLocal | offline/packages/micromegas/MicromegasRawDataEvaluation.cc:239-258 | the decision for a FEE depends only on that FEE's anchor and queue |
| Matcher.InterleavingIndependent | offline/packages/micromegas/MicromegasRawDataEvaluation.cc:238-281 | a FEE's outcomes, final anchor and final queue do not depend on how its occurrences are interleaved with other FEEs' occurrences |
| Matcher.CorrelationScenario | offline/packages/micromegas/MicromegasRawDataEvaluation.cc:242-281 | candidates 1000, 2000, 3000 and FEE clocks 55, 56, 57, 200, 201 get 1000, 1000, 1000, 2000, 2000, leaving 3000 |
| Matcher.ExhaustionScenario | offline/packages/micromegas/MicromegasRawDataEvaluation.cc:282-292 | with no candidates a distant FEE clock is an orphan with clock 0 and the anchor is kept |
| Orphans.Insert | offline/packages/micromegas/MicromegasRawDataEvaluation.cc:284 | the insertion reports "new" exactly when the pair was absent, and adds only that pair |
| Orphans.ReportedOnce | offline/packages/micromegas/MicromegasRawDataEvaluation.cc:284 | inserting the same pair twice reports new, then not new |
| Peak.PeakIndex | offline/packages/micromegas/MicromegasRawDataEvaluation.cc:331-348 | a peak is a valid index holding an ADC above 0. It is at least every valid value and strictly above every earlier valid value (first occurrence on ties). No peak means every valid value is 0. |
| Peak.PeakIndexUnique | offline/packages/micromegas/MicromegasRawDataEvaluation.cc:344-347 | the peak is determined by that characterisation |
| Peak.PeakSampleOf | offline/packages/micromegas/MicromegasRawDataEvaluation.cc:331-348 | the running peak is either the default sample or the row's sample stamped with a valid index and its ADC. Either way no valid value exceeds it. A non-default peak is above 0 and strictly above every earlier valid value, so the first occurrence wins ties. The default survives exactly when every valid value is 0. |
| Peak.ValidSamples | offline/packages/micromegas/MicromegasRawDataEvaluation.cc:332-342 | one sample per non-sentinel value, in strictly increasing index order, each the row's sample stamped with its index and ADC. None is missing. |
| Peak.TieBreakScenario | offline/packages/micromegas/MicromegasRawDataEvaluation.cc:344-347 | ADC values 5, 10, 7, 10 give the peak at index 1 |
| Multimap.InsertPermutes | offline/packages/micromegas/MicromegasRawDataEvaluation.cc:342 | `emplace` adds exactly the new entry |
| Multimap.InsertSorted | offline/packages/micromegas/MicromegasRawDataEvaluation.cc:342 | `emplace` keeps the entries in key order |
| Multimap.InsertFilter | offline/packages/micromegas/MicromegasRawDataEvaluation.cc:361 | `emplace` appends the entry after the existing entries with the same key and leaves other keys' entries alone |
| Multimap.InsertAllFilter | offline/packages/micromegas/MicromegasRawDataEvaluation.cc:134-136 | emplacing a sequence appends, per key, its entries in insertion order |
| Multimap.InsertAllSorted | offline/packages/micromegas/MicromegasRawDataEvaluation.cc:134-136 | emplacing a sequence keeps key order |
| Multimap.InsertAllPermutes | offline/packages/micromegas/MicromegasRawDataEvaluation.cc:134-136 | emplacing a sequence adds exactly its entries |
| Multimap.StableSortByInsertion | offline/packages/micromegas/MicromegasRawDataEvaluation.cc:367-386 | iterating the filled multimap is sorted by key, stable among equal keys, and a permutation of what was inserted |
| Multimap.SortedFiltersDetermine | offline/packages/micromegas/MicromegasRawDataEvaluation.cc:367-386 | two sequences that are sorted and agree per key are equal, so the iteration order is the unique stable sort |
| Evaluation.Increment | offline/packages/micromegas/MicromegasRawDataEvaluation.cc:299-300 | the count of the sample's LVL1 clock goes up by one and no other count changes |
| Evaluation.ScanLength | offline/packages/micromegas/MicromegasRawDataEvaluation.cc:314-332 | the scan covers min(declared count as unsigned short, 1024) indices |
| Evaluation.ReadAdcs | offline/packages/micromegas/MicromegasRawDataEvaluation.cc:335 | each value read is the decoder's value narrowed to 16 bits |
| Evaluation.RowTemplate | offline/packages/micromegas/MicromegasRawDataEvaluation.cc:212-311 | the running sample before the ADC loop carries the packet id, the row's FEE, channel, SAMPA address and channel, checksum, the checksum-error flag as "non-zero", and the FEE clock cut to 32 bits. It has the FEE's layer and tile and the channel's strip from the mapping, the channel's calibration pedestal and rms, and the matched LVL1 clock (0 for an orphan) with a consistent 20-bit mask. Index and ADC are still 0. |
| Evaluation.MakeWaveform | offline/packages/micromegas/MicromegasRawDataEvaluation.cc:350-359 | the waveform is the peak's projection. It is a signal exactly when rms > 0, the peak ADC reaches the minimum, the peak index lies in the sample window, and the peak ADC exceeds pedestal + nSigma * rms. |
| Evaluation.SignalBoundaryScenario | offline/packages/micromegas/MicromegasRawDataEvaluation.cc:354-359 | pedestal 10, rms 2, nSigma 3: ADC 15 is noise, ADC 17 is a signal |
| Evaluation.SignalHasRealPeak | offline/packages/micromegas/MicromegasRawDataEvaluation.cc:331-359 | with a non-negative threshold, a signal's peak is a value actually read, carrying the row's LVL1 clock |
| Evaluation.RowSamples | offline/packages/micromegas/MicromegasRawDataEvaluation.cc:331-342 | the ADC loop of a row pushes one sample per valid value read, in strictly increasing index order. Each is the running sample stamped with its index and ADC, and no valid value is missing. |
| Evaluation.PeakWaveformUnique | offline/packages/micromegas/MicromegasRawDataEvaluation.cc:331-359 | the peak waveform of a scan is determined: two waveforms that both have the greatest valid ADC at its first index, the running sample's other fields, and the signal classification are equal |
| Evaluation.PeakWaveform | offline/packages/micromegas/MicromegasRawDataEvaluation.cc:331-359 | the waveform of a scan's running peak is that scan's peak waveform, with the template's clock, FEE and channel |
| Evaluation.RowWaveformIsRowPeak | offline/packages/micromegas/MicromegasRawDataEvaluation.cc:331-359 | the waveform a row yields is its peak waveform. No valid value exceeds its ADC. A non-zero peak is the value read at `sampleMax`, strictly above every earlier valid value, with every other field from the running sample. A zero peak is the default sample's projection. It is a signal exactly when the channel's calibration rms is positive, the peak reaches the minimum ADC, its index lies in the window, and it exceeds the calibration pedestal plus nSigma rms. |
| Evaluation.ProcessRow | offline/packages/micromegas/MicromegasRawDataEvaluation.cc:212-362 | a channel out of range changes nothing and emits nothing. Otherwise the anchors and queues follow the match and the count of the assigned clock goes up. The samples are exactly the row's valid values under the assigned clock, each with a consistent mask and the row's FEE and FEE clock. With waveform evaluation there is exactly one waveform, the row's peak waveform under that clock, and none otherwise. |
| Evaluation.RowOrphanTracking | offline/packages/micromegas/MicromegasRawDataEvaluation.cc:282-292 | a report is printed exactly for a verbose run and an orphan row with a new (FEE, FEE clock) pair. The orphan set gains exactly that pair for a verbose orphan row and is unchanged otherwise. |
| Evaluation.RowEmitsEveryValidSample | offline/packages/micromegas/MicromegasRawDataEvaluation.cc:332-342 | every valid ADC value read is emitted as a sample with the assigned clock, and an orphan row's samples are kept with clock 0 and mask 0 |
| Evaluation.RowWaveformIsPeak | offline/packages/micromegas/MicromegasRawDataEvaluation.cc:331-361 | with waveform evaluation an accepted row emits exactly one waveform, the row's peak waveform under the assigned clock |
| Evaluation.MatchInputsStep | offline/packages/micromegas/MicromegasRawDataEvaluation.cc:225-243 | a row with an out-of-range channel never reaches the matcher; an accepted row is matched first, then the rest |
| Evaluation.AcceptedMembers | offline/packages/micromegas/MicromegasRawDataEvaluation.cc:225-231 | a row reaches the scan exactly when it is one of the packet's rows and its channel is below the channel count |
| Evaluation.MatchInputsOfAccepted | offline/packages/micromegas/MicromegasRawDataEvaluation.cc:225-243 | the matcher sees the accepted rows, in order, each as its (FEE, FEE clock as 32 bits) pair |
| Evaluation.ProcessRows | offline/packages/micromegas/MicromegasRawDataEvaluation.cc:212-363 | the anchors and queues after a packet's rows are those of the matcher run over the accepted rows. One waveform per accepted row when waveforms are evaluated, and every sample has a consistent mask. |
| Evaluation.RowsEmitExactly | offline/packages/micromegas/MicromegasRawDataEvaluation.cc:212-363 | the loop's samples are exactly each accepted row's valid values, back to back in row order, each row under the clock the matcher run over the accepted rows gives it. With waveform evaluation its waveforms are exactly those rows' peak waveforms in row order, and there are none otherwise. |
| Evaluation.RowsWaveformsAt | offline/packages/micromegas/MicromegasRawDataEvaluation.cc:331-361 | position k of the accepted rows' waveforms holds the k-th accepted row's peak waveform under its clock |
| Evaluation.RowsSamplesHave | offline/packages/micromegas/MicromegasRawDataEvaluation.cc:331-342 | every valid value of every accepted row is among the accepted rows' samples, under that row's clock |
| Evaluation.RowsSamplesAreValues | offline/packages/micromegas/MicromegasRawDataEvaluation.cc:331-342 | every sample of the accepted rows is a valid value of one of them, stamped under that row's clock |
| Evaluation.RowsEmitEveryValidSample | offline/packages/micromegas/MicromegasRawDataEvaluation.cc:212-363 | every valid ADC value of every accepted row is among the loop's samples, with its packet, FEE, channel, index and ADC, and the LVL1 clock the matcher run gives that row (0 for an orphan) |
| Evaluation.RowsWaveformsArePeaks | offline/packages/micromegas/MicromegasRawDataEvaluation.cc:212-363 | with waveform evaluation, the loop emits one waveform per accepted row in row order, and the k-th is the peak waveform of the k-th accepted row under the clock the matcher run gives it |
| Evaluation.OrphanReportsFresh | offline/packages/micromegas/MicromegasRawDataEvaluation.cc:208-292 | the packet's orphan set only grows, only pairs absent from it at the start are reported and each reported pair ends up in it, and nothing is reported or recorded unless verbose |
| Evaluation.OrphanReportsOnce | offline/packages/micromegas/MicromegasRawDataEvaluation.cc:208-292 | within a packet no (FEE, FEE clock) orphan pair is reported twice |
| Evaluation.ProcessPacket | offline/packages/micromegas/MicromegasRawDataEvaluation.cc:152-364 | taggers are every row's record when tagger evaluation is on. Without sample or waveform evaluation nothing else happens. With waveform evaluation, one waveform per accepted row. |
| Evaluation.PacketEmitsExactly | offline/packages/micromegas/MicromegasRawDataEvaluation.cc:202-363 | with sample or waveform evaluation, the anchors after the packet are those of a matcher run that starts from empty queues seeded with the packet's LVL1 list. The packet emits exactly its accepted rows' samples and, with waveform evaluation, their peak waveforms, in row order, under that run's clocks. |
| Evaluation.PacketEmitsEveryValidSample | offline/packages/micromegas/MicromegasRawDataEvaluation.cc:202-363 | every valid ADC value of every accepted row of a packet is among its samples, under the clock the packet's matcher run gives the row |
| Evaluation.PacketWaveformsArePeaks | offline/packages/micromegas/MicromegasRawDataEvaluation.cc:202-363 | a packet's k-th waveform is the peak waveform of its k-th accepted row, under the clock the packet's matcher run gives the row |
| Evaluation.PacketConsumesLvl1Prefix | offline/packages/micromegas/MicromegasRawDataEvaluation.cc:250-281 | within a packet, the LVL1 clocks each FEE takes are an in-order prefix of that packet's LVL1 list |
| Evaluation.ProcessPackets | offline/packages/micromegas/MicromegasRawDataEvaluation.cc:138-365 | missing packets are skipped. The tagger output is the records of every present packet in packet order. Without sample or waveform evaluation the anchors are unchanged. With waveform evaluation, one waveform per accepted row of every present packet. |
| Evaluation.PacketsEmitExactly | offline/packages/micromegas/MicromegasRawDataEvaluation.cc:138-365 | the packet loop chains the anchors: each present packet's matcher run starts from the anchors the packets before it leave, and the loop leaves those of the last run. It emits exactly the samples and waveforms of those runs, packet after packet. |
| Evaluation.PacketsWaveformAt | offline/packages/micromegas/MicromegasRawDataEvaluation.cc:138-365 | the waveform of the k-th accepted row of present packet i is at position (accepted rows of the earlier packets) + k of the emitted waveforms. It is that row's peak waveform under the clock of its packet's chained matcher run. |
| Evaluation.LoopWaveformsAreRows | offline/packages/micromegas/MicromegasRawDataEvaluation.cc:138-365 | every waveform the packet loop emits is the peak waveform of some accepted row of some present packet, under the clock of its packet's chained run |
| Evaluation.LoopSamplesAreValues | offline/packages/micromegas/MicromegasRawDataEvaluation.cc:138-365 | every sample the packet loop emits is a valid value of some accepted row of some present packet, stamped under the clock of its packet's chained run |
| Evaluation.PacketsEmitEveryValidSample | offline/packages/micromegas/MicromegasRawDataEvaluation.cc:138-365 | every valid ADC value of every accepted row of every present packet is among the emitted samples, with its packet, FEE, channel, index and ADC, under the clock of its packet's chained matcher run |
| Evaluation.ProcessEvent | offline/packages/micromegas/MicromegasRawDataEvaluation.cc:119-392 | events of type 8 or above change nothing. Otherwise the container is reset, then holds every tagger. Its samples and waveforms are sorted by LVL1 clock, keep emission order among equal clocks, and are a permutation of what the chained packet runs emit. Each is empty when its kind is not evaluated. There is one waveform per accepted row of every present packet. The anchors left by the chained runs carry over to the next event. |
| Bookkeeping.FirstOccurrences | offline/packages/micromegas/MicromegasRawDataEvaluation.cc:284 | the reference for inserting a sequence of pairs into a set and keeping those whose insertion is new: exactly the values not already seen, each once |
| Bookkeeping.RowsOrphanReports | offline/packages/micromegas/MicromegasRawDataEvaluation.cc:212-292 | in a verbose run the loop reports exactly the orphan pairs of its matcher run that are not yet in the set, each once, in the order they first occur |
| Bookkeeping.RowsOrphanSet | offline/packages/micromegas/MicromegasRawDataEvaluation.cc:212-292 | in a verbose run the orphan set ends up holding exactly its earlier pairs and the orphan pairs of the loop's matcher run |
| Bookkeeping.PacketOrphanReports | offline/packages/micromegas/MicromegasRawDataEvaluation.cc:203-292 | each packet starts an empty orphan set: in a verbose run with sample or waveform evaluation it reports every distinct orphan pair of its matcher run once, in first-occurrence order, and otherwise nothing |
| Bookkeeping.RowsCounts | offline/packages/micromegas/MicromegasRawDataEvaluation.cc:212-300 | over a packet's rows the count of a LVL1 clock goes up by the number of accepted rows the matcher run gives that clock (an orphan counts under 0), and no other way |
| Bookkeeping.PacketCounts | offline/packages/micromegas/MicromegasRawDataEvaluation.cc:203-300 | a packet raises the count of each clock by the number of its accepted rows its matcher run gives that clock, and leaves every count alone without sample or waveform evaluation |
| Bookkeeping.LoopClocksLength | offline/packages/micromegas/MicromegasRawDataEvaluation.cc:138-300 | the packet loop assigns one clock per accepted row of every present packet, and none without sample or waveform evaluation |
| Bookkeeping.LoopClocksAt | offline/packages/micromegas/MicromegasRawDataEvaluation.cc:138-300 | the clock at position (accepted rows of the earlier packets) + k is the one the chained matcher run of present packet i gives its k-th accepted row |
| Bookkeeping.PacketsCounts | offline/packages/micromegas/MicromegasRawDataEvaluation.cc:138-365 | over the packet loop, the count of each clock goes up by the number of accepted rows of present packets that their packets' chained matcher runs give that clock |
| Bookkeeping.EventCounts | offline/packages/micromegas/MicromegasRawDataEvaluation.cc:119-392 | the counts handed to the next event: unchanged for a discarded event, otherwise raised per clock by the number of accepted rows of present packets given that clock, and unchanged without sample or waveform evaluation |
| Evaluation.ContainerSamplesAreStableSort | offline/packages/micromegas/MicromegasRawDataEvaluation.cc:367-376 | any sorted sequence that keeps each clock's emitted samples in order is exactly the container's samples |
| Evaluation.EventKeepsEveryValidSample | offline/packages/micromegas/MicromegasRawDataEvaluation.cc:119-392 | with sample evaluation, every valid ADC value of every accepted row of every present packet reaches the container, with its packet, FEE, channel, index and ADC, under the clock of its packet's chained matcher run |
| Evaluation.EventSamplesAreRowValues | offline/packages/micromegas/MicromegasRawDataEvaluation.cc:119-392 | every sample in the container is such a value: a valid ADC value of an accepted row of a present packet, under its packet's chained clock |
| Evaluation.EventKeepsEveryRowWaveform | offline/packages/micromegas/MicromegasRawDataEvaluation.cc:119-392 | with waveform evaluation, the peak waveform of every accepted row of every present packet, under its packet's chained clock, is in the container |
| Evaluation.EventWaveformsAreRowPeaks | offline/packages/micromegas/MicromegasRawDataEvaluation.cc:119-392 | every waveform in the container is the peak waveform of an accepted row of a present packet, under its packet's chained clock |

## Left out

- ROOT output (`Init`, the tree `Fill`, `End`'s file write and printout of the per-clock counts): this is I/O. The counts themselves are kept in `Evaluation.Engine`.
- Packet decoding (`Event`, `Packet`, `lValue`, `iValue`, `getPacket`): replaced by decoded rows holding the raw integer columns. A missing packet is an id absent from `Event.packets`.
- Channel mapping and calibration (`get_hitsetkey`, `getLayer`, `getTileId`, `get_physical_strip`, `get_pedestal`, `get_rms`): these are foreign services. They are the function fields of `Evaluation.Services`.
- Floating point: pedestal, rms and `m_n_sigma` are reals. `pedestal + m_n_sigma * rms` and the comparison with the ADC are exact, so IEEE rounding is not modelled.
- The `std::list` stream operator (offline/packages/micromegas/MicromegasRawDataEvaluation.cc:31-55): it only formats the LVL1 list for logging.
- Verbose printouts: these are logging. Only the orphan-set decision that gates one of them is modelled, as `RowResult.orphanReported`.
- `MicromegasRawDataEvaluation.h` is not part of this model, so the widths of the sample fields it declares are not known. The FEE id and channel are naturals; negative FEE or channel columns are not modelled. The checksum, SAMPA address and SAMPA channel are kept as the decoder returns them. The default member values of `Sample` and `Waveform`, `is_signal` included, are taken as zero or false. The `Waveform` constructor from a sample (`Waveform waveform(sample_max)`, offline/packages/micromegas/MicromegasRawDataEvaluation.cc:352) is declared in that header and is taken to be `copy_from`. The same holds for `TaggerInformation`: `packet_id`, `is_lvl1` and `is_endat` are kept at the widths of the casts in the code, so the flags are 8-bit values. If the header declares the flags `bool`, the code stores `uint8 != 0`. A record would then hold 1 where the model holds the 8-bit value. The LVL1 test (`tagger.is_lvl1 && ...`) is a non-zero test either way, so the candidate list is the same.
- The per-packet queue map is keyed by `unsigned short` (offline/packages/micromegas/MicromegasRawDataEvaluation.cc:206, 251-255). The model keys it by the FEE id itself. In the code `lower_bound` narrows the id to 16 bits, but the `fee_id < iter->first` test compares the full id, and it is always false for an id of 2^16 or more. Such a FEE takes whatever queue `lower_bound` lands on, including another FEE's: FEE 65539 takes FEE 5's queue when only key 5 exists. It creates a queue, under the narrowed key, only when `lower_bound` reaches the end. So once a packet holds a FEE id of 2^16 or more, queues can be shared or taken. Only packets whose FEE ids are all below 2^16 behave the same in the code and the model.
- `MicromegasDefs.h` is not part of this model. The packet id list, `m_nchannels_fee` and `m_adc_invalid` are configuration fields.
- The key that `operator[]` inserts into the anchor map for a FEE never seen: the map is only read through `operator[]`, so `Matcher.CacheOf` returning (0, 0) is indistinguishable from it.
- Evaluation.Increment: the waveform count per clock is an unbounded natural, so overflow of the counter type is not modelled.

=== FILE: bco.dfy ===
/** Distance between two beam-crossing (BCO) counter values. */
module Bco {
  import opened Ints

  /** A FEE clock that moved by less than this many ticks since the last
      anchored value is still in the same trigger block. */
  const MAX_FEE_BCO_DIFF: u32 := 10

  /** `get_bco_diff`: the unsigned distance between two counter values,
      computed by subtracting the smaller from the larger so that it never
      wraps around.  Counter roll-over is not handled. */
  function BcoDiff(first: u32, second: u32): (d: u32)
    ensures first <= second ==> first + d == second
    ensures second <= first ==> second + d == first
  {
    if first < second then second - first else first - second
  }

  /** The distance is the mathematical absolute difference. */
  lemma BcoDiffIsAbs(a: u32, b: u32)
    ensures BcoDiff(a, b) == if a - b < 0 then b - a else a - b
  {
  }

  lemma BcoDiffSymmetric(a: u32, b: u32)
    ensures BcoDiff(a, b) == BcoDiff(b, a)
  {
  }

  lemma BcoDiffZeroIff(a: u32, b: u32)
    ensures BcoDiff(a, b) == 0 <==> a == b
  {
  }
}

=== FILE: bookkeeping.dfy ===
/** The bookkeeping of the waveform loop beyond one row: which orphan
    (FEE, FEE clock) pairs a verbose run reports for a packet, and how the
    waveform count per LVL1 clock grows over a packet, the packet loop and
    an event. */
module Bookkeeping {
  import opened Ints
  import opened Matcher
  import opened Evaluation
  import opened Records

  // ---------------------------------------------------------------------
  // Orphan reports

  /** The values of `xs` that are not in `seen`, each once, in the order
      of their first occurrence. */
  function FirstOccurrences<T(==,!new)>(xs: seq<T>, seen: set<T>): (r: seq<T>)
    ensures forall x :: x in r <==> x in xs && x !in seen
    ensures forall i, j :: 0 <= i < j < |r| ==> r[i] != r[j]
    decreases |xs|
  {
    if |xs| == 0 then []
    else if xs[0] in seen then FirstOccurrences(xs[1..], seen)
    else [xs[0]] + FirstOccurrences(xs[1..], seen + {xs[0]})
  }

  /** Putting one more value in front. */
  lemma FirstOccurrencesCons<T(!new)>(x: T, xs: seq<T>, seen: set<T>)
    ensures FirstOccurrences([x] + xs, seen)
            == if x in seen then FirstOccurrences(xs, seen) else [x] + FirstOccurrences(xs, seen + {x})
  {
    assert ([x] + xs)[0] == x && ([x] + xs)[1..] == xs;
  }

  /** The (FEE, FEE clock) pairs of the occurrences a matcher run leaves
      without a LVL1 clock, in order. */
  function OrphanPairs(inputs: seq<(nat, u32)>, outs: seq<Outcome>): seq<(nat, u32)>
    requires |outs| == |inputs|
    decreases |inputs|
  {
    if |inputs| == 0 then []
    else (if outs[0].Orphan? then [inputs[0]] else []) + OrphanPairs(inputs[1..], outs[1..])
  }

  /** One more occurrence in front. */
  lemma OrphanPairsCons(x: (nat, u32), inputs: seq<(nat, u32)>, o: Outcome, outs: seq<Outcome>)
    requires |outs| == |inputs|
    ensures OrphanPairs([x] + inputs, [o] + outs)
            == (if o.Orphan? then [x] else []) + OrphanPairs(inputs, outs)
  {
    assert ([x] + inputs)[1..] == inputs && ([o] + outs)[1..] == outs;
  }

  /** One step of the waveform loop, as the orphan bookkeeping sees it:
      the first row's report, if any, comes first, and the rest of the
      loop starts from the state the first row leaves. */
  lemma RowsReportsStep(cfg: Config, svc: Services, packetId: int, main: seq<u64>,
                        st: PacketState, rows: seq<WaveformRow>)
    requires |rows| > 0
    ensures var one := ProcessRow(cfg, svc, packetId, main, st, rows[0]);
            var all := ProcessRows(cfg, svc, packetId, main, st, rows);
            var rest := ProcessRows(cfg, svc, packetId, main, one.state, rows[1..]);
            && all.state == rest.state
            && all.orphanReports
               == (if one.orphanReported then [(rows[0].fee, ToU32(rows[0].bco))] else []) + rest.orphanReports
  {
    ProcessRowsCons(cfg, svc, packetId, main, st, rows);
  }

  /** The orphan pairs of a packet's matcher run: the first accepted row's
      pair if it is an orphan, then those of the rest of the run. */
  lemma OrphanPairsStep(cfg: Config, svc: Services, packetId: int, main: seq<u64>,
                        st: PacketState, rows: seq<WaveformRow>)
    requires |rows| > 0
    ensures var n := cfg.nChannelsFee;
            var one := ProcessRow(cfg, svc, packetId, main, st, rows[0]);
            var inputs := MatchInputs(n, rows);
            var inputs' := MatchInputs(n, rows[1..]);
            OrphanPairs(inputs, Run(st.cache, st.queues, main, inputs).outcomes)
            == (if rows[0].channel < n && Match(st.cache, st.queues, main, rows[0].fee, ToU32(rows[0].bco)).outcome.Orphan?
                then [(rows[0].fee, ToU32(rows[0].bco))] else [])
               + OrphanPairs(inputs', Run(one.state.cache, one.state.queues, main, inputs').outcomes)
  {
    var n := cfg.nChannelsFee;
    var one := ProcessRow(cfg, svc, packetId, main, st, rows[0]);
    var inputs' := MatchInputs(n, rows[1..]);
    var outs' := Run(one.state.cache, one.state.queues, main, inputs').outcomes;
    MatchInputsStep(n, st.cache, st.queues, main, rows);
    if rows[0].channel < n {
      var x := (rows[0].fee, ToU32(rows[0].bco));
      assert MatchInputs(n, rows) == [x] + inputs';
      OrphanPairsCons(x, inputs', Match(st.cache, st.queues, main, rows[0].fee, ToU32(rows[0].bco)).outcome, outs');
    } else {
      assert MatchInputs(n, rows) == inputs';
      assert [] + OrphanPairs(inputs', outs') == OrphanPairs(inputs', outs');
    }
  }

  /** A value that is reported exactly when it occurs and is not yet seen,
      and is seen afterwards exactly when it occurs, puts itself in front of
      the first occurrences of the values after it. */
  lemma FirstOccurrencesStep<T(!new)>(x: T, hit: bool, reported: bool, seen: set<T>, seen': set<T>, later: seq<T>)
    requires seen' == if hit then seen + {x} else seen
    requires reported <==> hit && x !in seen
    ensures (if reported then [x] else []) + FirstOccurrences(later, seen')
            == FirstOccurrences((if hit then [x] else []) + later, seen)
  {
    if hit {
      FirstOccurrencesCons(x, later, seen);
      if x in seen {
        assert seen' == seen;
      }
    } else {
      assert [] + later == later;
      assert [] + FirstOccurrences(later, seen') == FirstOccurrences(later, seen');
    }
  }

  /** One row in a verbose run: its report, followed by the first
      occurrences of later pairs against the set it leaves, is the first
      occurrences of its own orphan pair and the later ones against the set
      it found. */
  lemma RowReportHead(cfg: Config, svc: Services, packetId: int, main: seq<u64>,
                      st: PacketState, row: WaveformRow, later: seq<(nat, u32)>)
    requires cfg.verbose
    ensures var one := ProcessRow(cfg, svc, packetId, main, st, row);
            var x := (row.fee, ToU32(row.bco));
            (if one.orphanReported then [x] else []) + FirstOccurrences(later, one.state.orphans)
            == FirstOccurrences((if row.channel < cfg.nChannelsFee
                                    && Match(st.cache, st.queues, main, row.fee, ToU32(row.bco)).outcome.Orphan?
                                 then [x] else []) + later, st.orphans)
  {
    var one := ProcessRow(cfg, svc, packetId, main, st, row);
    var hit := row.channel < cfg.nChannelsFee && Match(st.cache, st.queues, main, row.fee, ToU32(row.bco)).outcome.Orphan?;
    RowOrphanTracking(cfg, svc, packetId, main, st, row);
    FirstOccurrencesStep((row.fee, ToU32(row.bco)), hit, one.orphanReported, st.orphans, one.state.orphans, later);
  }

  /** In a verbose run the waveform loop reports the orphan pairs of its
      matcher run that are not yet in the orphan set, each once, in the
      order they first occur. */
  lemma {:induction false} RowsOrphanReports(cfg: Config, svc: Services, packetId: int, main: seq<u64>,
                                             st: PacketState, rows: seq<WaveformRow>)
    requires cfg.verbose
    ensures var inputs := MatchInputs(cfg.nChannelsFee, rows);
            ProcessRows(cfg, svc, packetId, main, st, rows).orphanReports
            == FirstOccurrences(OrphanPairs(inputs, Run(st.cache, st.queues, main, inputs).outcomes), st.orphans)
    decreases |rows|
  {
    if |rows| > 0 {
      var n := cfg.nChannelsFee;
      var one := ProcessRow(cfg, svc, packetId, main, st, rows[0]);
      var inputs' := MatchInputs(n, rows[1..]);
      var pairs' := OrphanPairs(inputs', Run(one.state.cache, one.state.queues, main, inputs').outcomes);
      RowsReportsStep(cfg, svc, packetId, main, st, rows);
      OrphanPairsStep(cfg, svc, packetId, main, st, rows);
      RowsOrphanReports(cfg, svc, packetId, main, one.state, rows[1..]);
      RowReportHead(cfg, svc, packetId, main, st, rows[0], pairs');
    }
  }

  /** In a verbose run the orphan set ends up holding exactly the pairs it
      held before and the orphan pairs of the loop's matcher run. */
  lemma {:induction false} RowsOrphanSet(cfg: Config, svc: Services, packetId: int, main: seq<u64>,
                                         st: PacketState, rows: seq<WaveformRow>)
    requires cfg.verbose
    ensures var inputs := MatchInputs(cfg.nChannelsFee, rows);
            var pairs := OrphanPairs(inputs, Run(st.cache, st.queues, main, inputs).outcomes);
            forall p :: p in ProcessRows(cfg, svc, packetId, main, st, rows).state.orphans <==> p in st.orphans || p in pairs
    decreases |rows|
  {
    if |rows| > 0 {
      var one := ProcessRow(cfg, svc, packetId, main, st, rows[0]);
      RowsReportsStep(cfg, svc, packetId, main, st, rows);
      RowOrphanTracking(cfg, svc, packetId, main, st, rows[0]);
      OrphanPairsStep(cfg, svc, packetId, main, st, rows);
      RowsOrphanSet(cfg, svc, packetId, main, one.state, rows[1..]);
    }
  }

  /** A packet starts with an empty orphan set: in a verbose run with
      sample or waveform evaluation it reports every orphan pair of its
      matcher run once, in the order they first occur; otherwise it reports
      nothing. */
  lemma PacketOrphanReports(cfg: Config, svc: Services, cache: Cache, counts: map<u64, nat>,
                            packetId: int, p: Packet)
    ensures var inputs := MatchInputs(cfg.nChannelsFee, p.waveforms);
            var pairs := OrphanPairs(inputs, PacketRun(cfg, cache, packetId, p).outcomes);
            ProcessPacket(cfg, svc, cache, counts, packetId, p).orphanReports
            == if cfg.verbose && cfg.EvalMatching() then FirstOccurrences(pairs, {}) else []
  {
    if cfg.EvalMatching() {
      var st := PacketState(cache, counts, map[], {});
      if cfg.verbose {
        RowsOrphanReports(cfg, svc, packetId, PacketLvl1Bcos(packetId, p), st, p.waveforms);
      } else {
        OrphanReportsFresh(cfg, svc, packetId, PacketLvl1Bcos(packetId, p), st, p.waveforms);
      }
    }
  }

  // ---------------------------------------------------------------------
  // Waveform count per LVL1 clock

  /** The LVL1 clocks a matcher run gives its occurrences, in order. */
  function Clocks(outs: seq<Outcome>): (cs: seq<u64>)
    ensures |cs| == |outs|
    decreases |outs|
  {
    if |outs| == 0 then [] else [AssignedBco(outs[0])] + Clocks(outs[1..])
  }

  /** The `k`-th clock is the one the `k`-th outcome assigns. */
  lemma {:induction false} ClocksAt(outs: seq<Outcome>, k: int)
    requires 0 <= k < |outs|
    ensures Clocks(outs)[k] == AssignedBco(outs[k])
    decreases |outs|
  {
    if k > 0 {
      assert outs[1..][k - 1] == outs[k];
      ClocksAt(outs[1..], k - 1);
    }
  }

  /** One more outcome in front. */
  lemma ClocksCons(o: Outcome, outs: seq<Outcome>)
    ensures Clocks([o] + outs) == [AssignedBco(o)] + Clocks(outs)
  {
    assert ([o] + outs)[1..] == outs;
  }

  /** One row adds one to the count of the clock it is given, if it is
      accepted. */
  lemma RowCountStep(cfg: Config, svc: Services, packetId: int, main: seq<u64>,
                     st: PacketState, row: WaveformRow, b: u64)
    ensures CountOf(ProcessRow(cfg, svc, packetId, main, st, row).state.bcoCounts, b)
            == CountOf(st.bcoCounts, b)
               + (if row.channel < cfg.nChannelsFee
                     && AssignedBco(Match(st.cache, st.queues, main, row.fee, ToU32(row.bco)).outcome) == b
                  then 1 else 0)
  {
  }

  /** The clocks of a packet's matcher run: the first accepted row's, then
      those of the rest of the run. */
  lemma ClocksStep(cfg: Config, svc: Services, packetId: int, main: seq<u64>,
                   st: PacketState, rows: seq<WaveformRow>)
    requires |rows| > 0
    ensures var n := cfg.nChannelsFee;
            var one := ProcessRow(cfg, svc, packetId, main, st, rows[0]);
            Clocks(Run(st.cache, st.queues, main, MatchInputs(n, rows)).outcomes)
            == (if rows[0].channel < n
                then [AssignedBco(Match(st.cache, st.queues, main, rows[0].fee, ToU32(rows[0].bco)).outcome)]
                else [])
               + Clocks(Run(one.state.cache, one.state.queues, main, MatchInputs(n, rows[1..])).outcomes)
  {
    var n := cfg.nChannelsFee;
    var one := ProcessRow(cfg, svc, packetId, main, st, rows[0]);
    var outs' := Run(one.state.cache, one.state.queues, main, MatchInputs(n, rows[1..])).outcomes;
    MatchInputsStep(n, st.cache, st.queues, main, rows);
    if rows[0].channel < n {
      ClocksCons(Match(st.cache, st.queues, main, rows[0].fee, ToU32(rows[0].bco)).outcome, outs');
    } else {
      assert [] + Clocks(outs') == Clocks(outs');
    }
  }

  /** Over a packet's rows, the count of LVL1 clock `b` goes up once for
      every accepted row the matcher run gives `b` (0 for an orphan). */
  lemma {:induction false} RowsCounts(cfg: Config, svc: Services, packetId: int, main: seq<u64>,
                                      st: PacketState, rows: seq<WaveformRow>, b: u64)
    ensures var r := ProcessRows(cfg, svc, packetId, main, st, rows);
            var outs := Run(st.cache, st.queues, main, MatchInputs(cfg.nChannelsFee, rows)).outcomes;
            CountOf(r.state.bcoCounts, b) == CountOf(st.bcoCounts, b) + multiset(Clocks(outs))[b]
    decreases |rows|
  {
    if |rows| > 0 {
      var one := ProcessRow(cfg, svc, packetId, main, st, rows[0]);
      RowsReportsStep(cfg, svc, packetId, main, st, rows);
      RowCountStep(cfg, svc, packetId, main, st, rows[0], b);
      ClocksStep(cfg, svc, packetId, main, st, rows);
      RowsCounts(cfg, svc, packetId, main, one.state, rows[1..], b);
    }
  }

  /** Over one packet, the count of `b` goes up once for every accepted row
      the packet's matcher run gives `b`; without sample or waveform
      evaluation no count changes. */
  lemma PacketCounts(cfg: Config, svc: Services, cache: Cache, counts: map<u64, nat>,
                     packetId: int, p: Packet, b: u64)
    ensures CountOf(ProcessPacket(cfg, svc, cache, counts, packetId, p).bcoCounts, b)
            == CountOf(counts, b)
               + (if cfg.EvalMatching() then multiset(Clocks(PacketRun(cfg, cache, packetId, p).outcomes))[b] else 0)
  {
    if cfg.EvalMatching() {
      RowsCounts(cfg, svc, packetId, PacketLvl1Bcos(packetId, p), PacketState(cache, counts, map[], {}), p.waveforms, b);
    }
  }

  /** The clocks packet `id` gives its accepted rows when handed the
      anchors `cache`. */
  function PacketClocks(cfg: Config, cache: Cache, ev: Event, id: int): seq<u64> {
    if cfg.EvalMatching() && id in ev.packets
    then Clocks(PacketRun(cfg, cache, id, ev.packets[id]).outcomes)
    else []
  }

  /** The clocks the packet loop gives the accepted rows of every present
      packet, packet after packet, each packet's run starting from the
      anchors the packets before it leave. */
  function LoopClocks(cfg: Config, cache: Cache, ev: Event, ids: seq<int>): seq<u64>
    decreases |ids|
  {
    if |ids| == 0 then []
    else PacketClocks(cfg, cache, ev, ids[0]) + LoopClocks(cfg, FirstCache(cfg, cache, ev, ids), ev, ids[1..])
  }

  /** The loop gives one clock per accepted row of a present packet, and
      none without sample or waveform evaluation. */
  lemma {:induction false} LoopClocksLength(cfg: Config, cache: Cache, ev: Event, ids: seq<int>)
    ensures |LoopClocks(cfg, cache, ev, ids)| == if cfg.EvalMatching() then AcceptedCount(cfg.nChannelsFee, ev, ids) else 0
    decreases |ids|
  {
    if |ids| > 0 {
      LoopClocksLength(cfg, FirstCache(cfg, cache, ev, ids), ev, ids[1..]);
    }
  }

  /** The clocks of the packets of `pre` followed by those of `post`,
      started from the anchors `pre` leaves. */
  lemma {:induction false} LoopClocksAppend(cfg: Config, cache: Cache, ev: Event, pre: seq<int>, post: seq<int>)
    ensures LoopClocks(cfg, cache, ev, pre + post)
            == LoopClocks(cfg, cache, ev, pre) + LoopClocks(cfg, LoopCache(cfg, cache, ev, pre), ev, post)
    decreases |pre|
  {
    if |pre| == 0 {
      assert pre + post == post;
    } else {
      var c1 := FirstCache(cfg, cache, ev, pre);
      assert (pre + post)[0] == pre[0];
      assert (pre + post)[1..] == pre[1..] + post;
      FirstCacheSameHead(cfg, cache, ev, pre + post, pre);
      LoopClocksAppend(cfg, c1, ev, pre[1..], post);
    }
  }

  /** The loop's clocks around the `i`-th configured packet: those of the
      packets before it, its own from the anchors they leave, then those
      of the packets after it. */
  lemma LoopClocksSplit(cfg: Config, cache: Cache, ev: Event, ids: seq<int>, i: int)
    requires 0 <= i < |ids|
    ensures var c := LoopCache(cfg, cache, ev, ids[..i]);
            LoopClocks(cfg, cache, ev, ids)
            == LoopClocks(cfg, cache, ev, ids[..i])
               + (PacketClocks(cfg, c, ev, ids[i]) + LoopClocks(cfg, FirstCache(cfg, c, ev, ids[i..]), ev, ids[i + 1..]))
  {
    var pre := ids[..i];
    var post := ids[i..];
    var c := LoopCache(cfg, cache, ev, pre);
    assert ids == pre + post;
    assert post[0] == ids[i] && post[1..] == ids[i + 1..];
    LoopClocksAppend(cfg, cache, ev, pre, post);
  }

  /** The `k`-th clock of a present packet is the one its matcher run
      gives its `k`-th accepted row. */
  lemma PacketClocksAt(cfg: Config, cache: Cache, ev: Event, id: int, k: int)
    requires cfg.EvalMatching() && id in ev.packets
    requires 0 <= k < |Accepted(cfg.nChannelsFee, ev.packets[id].waveforms)|
    ensures k < |PacketClocks(cfg, cache, ev, id)|
    ensures PacketClocks(cfg, cache, ev, id)[k] == AssignedBco(PacketRun(cfg, cache, id, ev.packets[id]).outcomes[k])
  {
    ClocksAt(PacketRun(cfg, cache, id, ev.packets[id]).outcomes, k);
  }

  /** Row `k` of present packet `i` has its clock at position
      `AcceptedCount` of the packets before it plus `k`. */
  lemma LoopClocksAt(cfg: Config, cache: Cache, ev: Event, ids: seq<int>, i: int, k: int)
    requires cfg.EvalMatching() && IsLoopRow(cfg, ev, ids, i, k)
    ensures var cs := LoopClocks(cfg, cache, ev, ids);
            var m := AcceptedCount(cfg.nChannelsFee, ev, ids[..i]) + k;
            m < |cs| && cs[m] == LoopClock(cfg, cache, ev, ids, i, k)
  {
    var c := LoopCache(cfg, cache, ev, ids[..i]);
    LoopClocksSplit(cfg, cache, ev, ids, i);
    LoopClocksLength(cfg, cache, ev, ids[..i]);
    PacketClocksAt(cfg, c, ev, ids[i], k);
    IndexInMiddle(LoopClocks(cfg, cache, ev, ids[..i]), PacketClocks(cfg, c, ev, ids[i]),
                  LoopClocks(cfg, FirstCache(cfg, c, ev, ids[i..]), ev, ids[i + 1..]), k);
  }

  /** A present first packet hands on the anchors of its matcher run. */
  lemma PresentPacketCache(cfg: Config, svc: Services, cache: Cache, counts: map<u64, nat>, ev: Event, ids: seq<int>)
    requires |ids| > 0 && ids[0] in ev.packets
    ensures ProcessPacket(cfg, svc, cache, counts, ids[0], ev.packets[ids[0]]).cache == FirstCache(cfg, cache, ev, ids)
  {
    if cfg.EvalMatching() {
      PacketEmitsExactly(cfg, svc, cache, counts, ids[0], ev.packets[ids[0]]);
    }
  }

  /** One step of the packet loop, as the counts see it: the rest of the
      loop starts from the counts the first packet leaves, if present. */
  lemma PacketsCountsCons(cfg: Config, svc: Services, cache: Cache, counts: map<u64, nat>, ev: Event, ids: seq<int>)
    requires |ids| > 0
    ensures var counts' := if ids[0] in ev.packets
                           then ProcessPacket(cfg, svc, cache, counts, ids[0], ev.packets[ids[0]]).bcoCounts
                           else counts;
            ProcessPackets(cfg, svc, cache, counts, ev, ids).bcoCounts
            == ProcessPackets(cfg, svc, FirstCache(cfg, cache, ev, ids), counts', ev, ids[1..]).bcoCounts
  {
    if ids[0] in ev.packets {
      var pr := ProcessPacket(cfg, svc, cache, counts, ids[0], ev.packets[ids[0]]);
      PresentPacketCache(cfg, svc, cache, counts, ev, ids);
      assert ProcessPackets(cfg, svc, cache, counts, ev, ids).bcoCounts
             == ProcessPackets(cfg, svc, pr.cache, pr.bcoCounts, ev, ids[1..]).bcoCounts;
    } else {
      assert FirstCache(cfg, cache, ev, ids) == cache;
    }
  }

  /** The number of the loop's clocks equal to `b`: the first packet's,
      then the rest's. */
  lemma LoopClocksCount(cfg: Config, cache: Cache, ev: Event, ids: seq<int>, b: u64)
    requires |ids| > 0
    ensures multiset(LoopClocks(cfg, cache, ev, ids))[b]
            == multiset(PacketClocks(cfg, cache, ev, ids[0]))[b]
               + multiset(LoopClocks(cfg, FirstCache(cfg, cache, ev, ids), ev, ids[1..]))[b]
  {
    var here := PacketClocks(cfg, cache, ev, ids[0]);
    var rest := LoopClocks(cfg, FirstCache(cfg, cache, ev, ids), ev, ids[1..]);
    assert LoopClocks(cfg, cache, ev, ids) == here + rest;
    assert multiset(here + rest) == multiset(here) + multiset(rest);
  }

  /** A present packet raises each count by the number of its clocks
      equal to it. */
  lemma PresentPacketCounts(cfg: Config, svc: Services, cache: Cache, counts: map<u64, nat>,
                            ev: Event, id: int, b: u64)
    requires id in ev.packets
    ensures CountOf(ProcessPacket(cfg, svc, cache, counts, id, ev.packets[id]).bcoCounts, b)
            == CountOf(counts, b) + multiset(PacketClocks(cfg, cache, ev, id))[b]
  {
    PacketCounts(cfg, svc, cache, counts, id, ev.packets[id], b);
  }

  /** Over the packet loop, the count of `b` goes up once for every
      accepted row of every present packet whose packet's chained matcher
      run gives it `b`. */
  lemma {:induction false} PacketsCounts(cfg: Config, svc: Services, cache: Cache, counts: map<u64, nat>,
                                         ev: Event, ids: seq<int>, b: u64)
    ensures CountOf(ProcessPackets(cfg, svc, cache, counts, ev, ids).bcoCounts, b)
            == CountOf(counts, b) + multiset(LoopClocks(cfg, cache, ev, ids))[b]
    decreases |ids|
  {
    if |ids| > 0 {
      var c' := FirstCache(cfg, cache, ev, ids);
      LoopClocksCount(cfg, cache, ev, ids, b);
      PacketsCountsCons(cfg, svc, cache, counts, ev, ids);
      if ids[0] in ev.packets {
        var counts' := ProcessPacket(cfg, svc, cache, counts, ids[0], ev.packets[ids[0]]).bcoCounts;
        PresentPacketCounts(cfg, svc, cache, counts, ev, ids[0], b);
        PacketsCounts(cfg, svc, c', counts', ev, ids[1..], b);
      } else {
        assert PacketClocks(cfg, cache, ev, ids[0]) == [];
        PacketsCounts(cfg, svc, c', counts, ev, ids[1..], b);
      }
    }
  }

  /** The counts an event hands to the next: a discarded event leaves them
      alone; otherwise the count of `b` goes up once for every accepted row
      of every present packet given `b` by its packet's chained matcher run,
      and not at all without sample or waveform evaluation. */
  lemma EventCounts(cfg: Config, svc: Services, engine: Engine, c: Container, ev: Event, b: u64)
    ensures CountOf(ProcessEvent(cfg, svc, engine, c, ev).engine.bcoCounts, b)
            == CountOf(engine.bcoCounts, b)
               + (if ev.eventType < FIRST_DISCARDED_EVENT_TYPE
                  then multiset(LoopClocks(cfg, engine.cache, ev, cfg.packetIds))[b]
                  else 0)
  {
    if ev.eventType < FIRST_DISCARDED_EVENT_TYPE {
      PacketsCounts(cfg, svc, engine.cache, engine.bcoCounts, ev, cfg.packetIds, b);
    }
  }
}

=== FILE: evaluation.dfy ===
/** One event of the Micromegas raw-data evaluation: for every configured
    packet, collect its taggers, then match each waveform's FEE clock to a
    LVL1 clock, scan its ADC values for samples and the peak, classify the
    peak, and finally hand the samples and waveforms out ordered by LVL1
    clock.

    The packet decoder is replaced by already-decoded rows holding the raw
    integer columns; the channel mapping and the calibration are the
    function fields of `Services`. */
module Evaluation {
  import opened Ints
  import opened Bco
  import opened Records
  import opened Taggers
  import opened Matcher
  import Orphans
  import opened Peak
  import opened Multimap

  /** Events of this type or above are discarded untouched. */
  const FIRST_DISCARDED_EVENT_TYPE: int := 8

  /** Run configuration: which record kinds are evaluated, the verbosity,
      the packet ids and channel count of the detector, the ADC sentinel,
      and the signal thresholds. */
  datatype Config = Config(
    evalTagger: bool,
    evalSample: bool,
    evalWaveform: bool,
    verbose: bool,
    packetIds: seq<int>,
    nChannelsFee: nat,
    adcInvalid: u16,
    minAdc: int,
    sampleMin: int,
    sampleMax: int,
    nSigma: real)
  {
    /** Sample or waveform evaluation needs the BCO matching. */
    predicate EvalMatching() {
      evalSample || evalWaveform
    }
  }

  /** The channel mapping (layer and tile from the FEE, strip from FEE and
      channel) and the calibration (pedestal and rms per FEE and channel). */
  datatype Services = Services(
    layerOf: nat -> int,
    tileOf: nat -> int,
    stripOf: (nat, nat) -> int,
    pedestalOf: (nat, nat) -> real,
    rmsOf: (nat, nat) -> real)

  /** One decoded waveform: raw FEE, channel, FEE clock, checksum columns,
      SAMPA address and channel, the declared sample count, and the ADC
      value the decoder returns for each sample index. */
  datatype WaveformRow = WaveformRow(
    fee: nat,
    channel: nat,
    bco: int,
    checksum: int,
    checksumError: int,
    sampaAddress: int,
    sampaChannel: int,
    samples: int,
    adcAt: nat -> int)

  datatype Packet = Packet(taggers: seq<TaggerRow>, waveforms: seq<WaveformRow>)

  /** An event: its type and the packets it holds, by packet id. */
  datatype Event = Event(eventType: int, packets: map<int, Packet>)

  /** State kept across events: the per-FEE anchors and the count of
      waveforms seen per LVL1 clock. */
  datatype Engine = Engine(cache: Cache, bcoCounts: map<u64, nat>)

  function CountOf(counts: map<u64, nat>, b: u64): nat {
    if b in counts then counts[b] else 0
  }

  /** `++m_bco_map[b]` */
  function Increment(counts: map<u64, nat>, b: u64): (r: map<u64, nat>)
    ensures CountOf(r, b) == CountOf(counts, b) + 1
    ensures forall c :: c != b ==> CountOf(r, c) == CountOf(counts, c)
  {
    counts[b := CountOf(counts, b) + 1]
  }

  // ---------------------------------------------------------------------
  // One waveform

  /** The number of ADC values scanned: the declared count, read as an
      unsigned short, capped at 1024. */
  function ScanLength(row: WaveformRow): (n: nat)
    ensures n <= MAX_SAMPLES
    ensures n <= ToU16(row.samples)
    ensures n == MAX_SAMPLES || n == ToU16(row.samples)
  {
    Min(ToU16(row.samples), MAX_SAMPLES)
  }

  /** The first `n` ADC values the scan reads, each narrowed to 16 bits. */
  function ReadAdcs(row: WaveformRow, n: nat): (adcs: seq<u16>)
    ensures |adcs| == n
    ensures forall i :: 0 <= i < n ==> adcs[i] == ToU16(row.adcAt(i))
  {
    seq<u16>(n, i requires 0 <= i < n => ToU16(row.adcAt(i)))
  }

  /** The ADC values the scan of a row reads. */
  function AdcReads(row: WaveformRow): (adcs: seq<u16>)
    ensures |adcs| == ScanLength(row)
  {
    ReadAdcs(row, ScanLength(row))
  }

  /** The running sample of a waveform just before its ADC loop: the
      packet, the row's FEE, channel, SAMPA address and channel, checksum
      and FEE clock, the FEE's layer and tile and the channel's strip from
      the geometry, the channel's calibration, and the matched LVL1 clock
      with its 20-bit mask; index and ADC are still 0. */
  function RowTemplate(svc: Services, packetId: int, row: WaveformRow, lvl1: u64): (s: Sample)
    ensures s.packetId == packetId && s.feeId == row.fee && s.channel == row.channel
    ensures s.layer == svc.layerOf(row.fee) && s.tile == svc.tileOf(row.fee)
    ensures s.strip == svc.stripOf(row.fee, row.channel)
    ensures s.sampaAddress == row.sampaAddress && s.sampaChannel == row.sampaChannel
    ensures s.checksum == row.checksum && s.checksumError == (row.checksumError != 0)
    ensures s.feeBco == ToU32(row.bco) && s.lvl1Bco == lvl1 && MaskConsistent(s)
    ensures s.pedestal == svc.pedestalOf(row.fee, row.channel) && s.rms == svc.rmsOf(row.fee, row.channel)
    ensures s.sample == 0 && s.adc == 0
  {
    Sample(packetId, row.fee, svc.layerOf(row.fee), svc.tileOf(row.fee), row.channel,
           svc.stripOf(row.fee, row.channel), row.sampaAddress, row.sampaChannel,
           ToU32(row.bco), lvl1, Low20(lvl1), row.checksum, row.checksumError != 0, 0, 0,
           svc.pedestalOf(row.fee, row.channel), svc.rmsOf(row.fee, row.channel))
  }

  /** The waveform of a peak sample with its classification: a signal when
      the channel has noise, the peak reaches the minimum ADC, lies in the
      sample window, and stands more than `nSigma` rms above the pedestal.
      The pedestal and rms are the channel's calibration, not the peak's. */
  function MakeWaveform(cfg: Config, peak: Sample, pedestal: real, rms: real): (w: Waveform)
    ensures w.(isSignal := false) == CopyFrom(peak)
    ensures w.isSignal <==>
              && rms > 0.0
              && peak.adc >= cfg.minAdc
              && cfg.sampleMin <= peak.sample < cfg.sampleMax
              && peak.adc as real > pedestal + cfg.nSigma * rms
  {
    var w := CopyFrom(peak);
    w.(isSignal :=
      && rms > 0.0
      && w.adcMax >= cfg.minAdc
      && w.sampleMax >= cfg.sampleMin
      && w.sampleMax < cfg.sampleMax
      && w.adcMax as real > pedestal + cfg.nSigma * rms)
  }

  /** pedestal 10, rms 2, nSigma 3: an ADC of 15 is noise (not above 16),
      an ADC of 17 is a signal. */
  lemma SignalBoundaryScenario(s: Sample)
    requires s.sample == 5
    ensures var cfg := Config(false, false, true, false, [], 256, 0xFFFF, 0, 0, 1024, 3.0);
            !MakeWaveform(cfg, s.(adc := 15), 10.0, 2.0).isSignal
            && MakeWaveform(cfg, s.(adc := 17), 10.0, 2.0).isSignal
  {
  }

  /** With a non-negative threshold a signal is never the default peak: it
      is an ADC value the scan actually read. */
  lemma SignalHasRealPeak(cfg: Config, base: Sample, adcs: seq<u16>, pedestal: real, rms: real)
    requires |adcs| <= MAX_SAMPLES
    requires pedestal >= 0.0 && cfg.nSigma >= 0.0
    requires MakeWaveform(cfg, PeakSampleOf(base, adcs, cfg.adcInvalid), pedestal, rms).isSignal
    ensures var w := MakeWaveform(cfg, PeakSampleOf(base, adcs, cfg.adcInvalid), pedestal, rms);
            w.sampleMax < |adcs| && adcs[w.sampleMax] == w.adcMax && w.adcMax != cfg.adcInvalid
            && w.lvl1Bco == base.lvl1Bco
  {
    var p := PeakSampleOf(base, adcs, cfg.adcInvalid);
    assert p.adc as real > pedestal + cfg.nSigma * rms;
    assert cfg.nSigma * rms >= 0.0;
    assert p != DefaultSample;
  }

  /** The per-packet matcher state plus the run-wide waveform counts. */
  datatype PacketState = PacketState(
    cache: Cache,
    bcoCounts: map<u64, nat>,
    queues: Queues,
    orphans: Orphans.OrphanSet)

  /** What one waveform row produces: the new state, the samples and (when
      waveforms are evaluated) the waveform it emits, and whether an orphan
      report is printed for it. */
  datatype RowResult = RowResult(
    state: PacketState,
    samples: seq<Sample>,
    waveforms: seq<Waveform>,
    orphanReported: bool)

  /** The sample the scan of `row` emits for value `j` under LVL1 clock
      `lvl1`: the row's template stamped with index `j` and the ADC read
      there. */
  function StampedSample(svc: Services, packetId: int, row: WaveformRow, lvl1: u64, j: nat): Sample
    requires j < ScanLength(row)
  {
    RowTemplate(svc, packetId, row, lvl1).(sample := j, adc := ToU16(row.adcAt(j)))
  }

  /** What the ADC loop of an accepted row pushes under LVL1 clock `lvl1`:
      one stamped sample per valid value read, in index order, and nothing
      else. */
  function RowSamples(cfg: Config, svc: Services, packetId: int, row: WaveformRow, lvl1: u64): (ss: seq<Sample>)
    ensures forall k :: 0 <= k < |ss| ==>
              && ss[k].sample as int < ScanLength(row)
              && ToU16(row.adcAt(ss[k].sample as int)) != cfg.adcInvalid
              && ss[k] == StampedSample(svc, packetId, row, lvl1, ss[k].sample as int)
    ensures forall k, l :: 0 <= k < l < |ss| ==> ss[k].sample < ss[l].sample
    ensures forall j :: 0 <= j < ScanLength(row) && ToU16(row.adcAt(j)) != cfg.adcInvalid ==>
              StampedSample(svc, packetId, row, lvl1, j) in ss
  {
    var adcs := AdcReads(row);
    ValidSamples(RowTemplate(svc, packetId, row, lvl1), adcs, cfg.adcInvalid, |adcs|)
  }

  /** `w` is the peak waveform of the ADC values `adcs` scanned with the
      running sample `base`: its ADC is the greatest valid value read, at
      the first index holding it, and every other field is the running
      sample's; when no valid value rises above 0 it is the default
      sample's projection.  Either way it is classified against the given
      pedestal and rms. */
  predicate IsPeakWaveform(cfg: Config, adcs: seq<u16>, base: Sample, pedestal: real, rms: real, w: Waveform) {
    && (forall j :: 0 <= j < |adcs| && adcs[j] != cfg.adcInvalid ==> adcs[j] <= w.adcMax)
    && (w.adcMax > 0 ==>
          && w.sampleMax as int < |adcs| && adcs[w.sampleMax] == w.adcMax && w.adcMax != cfg.adcInvalid
          && (forall j :: 0 <= j < w.sampleMax as int && adcs[j] != cfg.adcInvalid ==> adcs[j] < w.adcMax)
          && w.(isSignal := false) == CopyFrom(base.(sample := w.sampleMax, adc := w.adcMax)))
    && (w.adcMax == 0 ==> w.(isSignal := false) == CopyFrom(DefaultSample))
    && (w.isSignal <==>
          && rms > 0.0
          && w.adcMax >= cfg.minAdc
          && cfg.sampleMin <= w.sampleMax < cfg.sampleMax
          && w.adcMax as real > pedestal + cfg.nSigma * rms)
  }

  /** The peak waveform of a scan is determined: two waveforms that are
      both the peak waveform of the same scan are equal. */
  lemma PeakWaveformUnique(cfg: Config, adcs: seq<u16>, base: Sample, pedestal: real, rms: real,
                           w1: Waveform, w2: Waveform)
    requires IsPeakWaveform(cfg, adcs, base, pedestal, rms, w1)
    requires IsPeakWaveform(cfg, adcs, base, pedestal, rms, w2)
    ensures w1 == w2
  {
    if w1.adcMax > 0 && w2.adcMax > 0 {
      assert w1.adcMax == w2.adcMax;
      assert w1.sampleMax == w2.sampleMax;
    }
  }

  /** `w` is the waveform the scan of `row` yields when the row is matched
      to `lvl1`: the peak waveform with the row's running sample, classified
      against the channel's calibration pedestal and rms. */
  predicate IsRowWaveform(cfg: Config, svc: Services, packetId: int, row: WaveformRow, lvl1: u64, w: Waveform) {
    IsPeakWaveform(cfg, AdcReads(row), RowTemplate(svc, packetId, row, lvl1),
                   svc.pedestalOf(row.fee, row.channel), svc.rmsOf(row.fee, row.channel), w)
  }

  /** The waveform of a scan's peak sample is the peak waveform of the
      scan. */
  lemma PeakWaveform(cfg: Config, base: Sample, adcs: seq<u16>, pedestal: real, rms: real)
    requires |adcs| <= MAX_SAMPLES
    ensures IsPeakWaveform(cfg, adcs, base, pedestal, rms,
                           MakeWaveform(cfg, PeakSampleOf(base, adcs, cfg.adcInvalid), pedestal, rms))
  {
    var p := PeakSampleOf(base, adcs, cfg.adcInvalid);
    var w := MakeWaveform(cfg, p, pedestal, rms);
    assert w.adcMax == p.adc && w.sampleMax == p.sample;
    if p != DefaultSample {
      assert p == base.(sample := w.sampleMax, adc := w.adcMax);
    }
  }

  /** The waveform an accepted row yields under LVL1 clock `lvl1`: the
      projection of its peak sample, classified against the channel's
      calibration. */
  function RowWaveform(cfg: Config, svc: Services, packetId: int, row: WaveformRow, lvl1: u64): Waveform {
    var base := RowTemplate(svc, packetId, row, lvl1);
    MakeWaveform(cfg, PeakSampleOf(base, AdcReads(row), cfg.adcInvalid), base.pedestal, base.rms)
  }

  /** That waveform is the row's peak waveform. */
  lemma RowWaveformIsRowPeak(cfg: Config, svc: Services, packetId: int, row: WaveformRow, lvl1: u64)
    ensures IsRowWaveform(cfg, svc, packetId, row, lvl1, RowWaveform(cfg, svc, packetId, row, lvl1))
  {
    var base := RowTemplate(svc, packetId, row, lvl1);
    PeakWaveform(cfg, base, AdcReads(row), base.pedestal, base.rms);
  }

  /** Process one waveform row against the packet's LVL1 list `main`. */
  function ProcessRow(cfg: Config, svc: Services, packetId: int, main: seq<u64>,
                      st: PacketState, row: WaveformRow): (r: RowResult)
    // a channel outside the FEE is skipped before any matching
    ensures row.channel >= cfg.nChannelsFee ==> r == RowResult(st, [], [], false)
    ensures row.channel < cfg.nChannelsFee ==>
              var step := Match(st.cache, st.queues, main, row.fee, ToU32(row.bco));
              var lvl1 := AssignedBco(step.outcome);
              && r.state.cache == step.cache
              && r.state.queues == step.queues
              && r.state.bcoCounts == Increment(st.bcoCounts, lvl1)
              // the row's valid values under the matched clock, and nothing else
              && r.samples == RowSamples(cfg, svc, packetId, row, lvl1)
              && (forall s :: s in r.samples ==>
                    s.lvl1Bco == lvl1 && MaskConsistent(s) && s.feeId == row.fee && s.feeBco == ToU32(row.bco))
              // its peak waveform, when waveforms are evaluated
              && r.waveforms == (if cfg.evalWaveform then [RowWaveform(cfg, svc, packetId, row, lvl1)] else [])
  {
    if row.channel >= cfg.nChannelsFee then RowResult(st, [], [], false)
    else
      var feeBco := ToU32(row.bco);
      var step := Match(st.cache, st.queues, main, row.fee, feeBco);
      var lvl1 := AssignedBco(step.outcome);
      var ins := Orphans.Insert(st.orphans, row.fee, feeBco);
      var tracked := step.outcome.Orphan? && cfg.verbose;
      var base := RowTemplate(svc, packetId, row, lvl1);
      var adcs := AdcReads(row);
      var samples := ValidSamples(base, adcs, cfg.adcInvalid, |adcs|);
      var waveforms :=
        if cfg.evalWaveform
        then [MakeWaveform(cfg, PeakSampleOf(base, adcs, cfg.adcInvalid), base.pedestal, base.rms)]
        else [];
      RowResult(
        PacketState(step.cache, Increment(st.bcoCounts, lvl1), step.queues,
                    if tracked then ins.orphans else st.orphans),
        samples, waveforms, tracked && ins.isNew)
  }

  /** The orphan set only grows, and a report is only printed, for a
      verbose run and an orphan row whose (FEE, FEE clock) pair is new. */
  lemma RowOrphanTracking(cfg: Config, svc: Services, packetId: int, main: seq<u64>,
                          st: PacketState, row: WaveformRow)
    ensures var r := ProcessRow(cfg, svc, packetId, main, st, row);
            && (r.orphanReported <==>
                  && row.channel < cfg.nChannelsFee
                  && cfg.verbose
                  && Match(st.cache, st.queues, main, row.fee, ToU32(row.bco)).outcome.Orphan?
                  && (row.fee, ToU32(row.bco)) !in st.orphans)
            // the pair is recorded exactly for a verbose run and an orphan row
            && r.state.orphans
               == (if && row.channel < cfg.nChannelsFee
                      && cfg.verbose
                      && Match(st.cache, st.queues, main, row.fee, ToU32(row.bco)).outcome.Orphan?
                   then st.orphans + {(row.fee, ToU32(row.bco))}
                   else st.orphans)
            && (r.orphanReported ==> (row.fee, ToU32(row.bco)) in r.state.orphans)
            && (!cfg.verbose ==> r.state.orphans == st.orphans)
  {
  }

  /** `samples` holds the sample of value `j` of `row` under LVL1 clock
      `lvl1`. */
  predicate HasSample(svc: Services, packetId: int, row: WaveformRow, lvl1: u64, samples: seq<Sample>, j: nat)
    requires j < ScanLength(row)
  {
    StampedSample(svc, packetId, row, lvl1, j) in samples
  }

  /** Every valid ADC value a row's scan reads is emitted as a sample, even
      when the row is an orphan (which then carries LVL1 clock 0). */
  lemma RowEmitsEveryValidSample(cfg: Config, svc: Services, packetId: int, main: seq<u64>,
                                 st: PacketState, row: WaveformRow, j: nat)
    requires row.channel < cfg.nChannelsFee
    requires j < ScanLength(row) && ToU16(row.adcAt(j)) != cfg.adcInvalid
    ensures var r := ProcessRow(cfg, svc, packetId, main, st, row);
            var o := Match(st.cache, st.queues, main, row.fee, ToU32(row.bco)).outcome;
            && HasSample(svc, packetId, row, AssignedBco(o), r.samples, j)
            && (o.Orphan? ==> var s := StampedSample(svc, packetId, row, AssignedBco(o), j);
                              s.lvl1Bco == 0 && s.lvl1BcoMasked == 0)
  {
  }

  /** The waveform a row emits is its peak, classified against the
      channel's calibration. */
  lemma RowWaveformIsPeak(cfg: Config, svc: Services, packetId: int, main: seq<u64>,
                          st: PacketState, row: WaveformRow)
    requires row.channel < cfg.nChannelsFee && cfg.evalWaveform
    ensures var r := ProcessRow(cfg, svc, packetId, main, st, row);
            var o := Match(st.cache, st.queues, main, row.fee, ToU32(row.bco)).outcome;
            |r.waveforms| == 1 && IsRowWaveform(cfg, svc, packetId, row, AssignedBco(o), r.waveforms[0])
  {
    var o := Match(st.cache, st.queues, main, row.fee, ToU32(row.bco)).outcome;
    RowWaveformIsRowPeak(cfg, svc, packetId, row, AssignedBco(o));
  }

  // ---------------------------------------------------------------------
  // One packet

  /** The rows the waveform loop does not skip: those whose channel is
      within the FEE, in order. */
  function Accepted(nChannelsFee: nat, rows: seq<WaveformRow>): (r: seq<WaveformRow>)
    ensures |r| <= |rows|
    decreases |rows|
  {
    if |rows| == 0 then []
    else (if rows[0].channel < nChannelsFee then [rows[0]] else []) + Accepted(nChannelsFee, rows[1..])
  }

  /** A row is accepted exactly when it is one of the packet's rows and its
      channel is within the FEE. */
  lemma {:induction false} AcceptedMembers(nChannelsFee: nat, rows: seq<WaveformRow>, x: WaveformRow)
    ensures x in Accepted(nChannelsFee, rows) <==> x in rows && x.channel < nChannelsFee
    decreases |rows|
  {
    if |rows| > 0 {
      AcceptedMembers(nChannelsFee, rows[1..], x);
      assert rows == [rows[0]] + rows[1..];
    }
  }

  /** What the matcher is given for a row. */
  function InputOf(row: WaveformRow): (nat, u32) {
    (row.fee, ToU32(row.bco))
  }

  /** The (FEE, FEE clock) pairs the matcher sees for a packet's rows: one
      per accepted row, in order. */
  function MatchInputs(nChannelsFee: nat, rows: seq<WaveformRow>): (r: seq<(nat, u32)>)
    ensures |r| == |Accepted(nChannelsFee, rows)|
    decreases |rows|
  {
    if |rows| == 0 then []
    else (if rows[0].channel < nChannelsFee then [(rows[0].fee, ToU32(rows[0].bco))] else [])
         + MatchInputs(nChannelsFee, rows[1..])
  }

  /** The matcher sees the accepted rows' FEE and FEE clock, in order. */
  lemma {:induction false} MatchInputsOfAccepted(nChannelsFee: nat, rows: seq<WaveformRow>, k: nat)
    requires k < |Accepted(nChannelsFee, rows)|
    ensures MatchInputs(nChannelsFee, rows)[k] == InputOf(Accepted(nChannelsFee, rows)[k])
    decreases |rows|
  {
    if rows[0].channel < nChannelsFee {
      if k > 0 {
        MatchInputsOfAccepted(nChannelsFee, rows[1..], k - 1);
      }
    } else {
      MatchInputsOfAccepted(nChannelsFee, rows[1..], k);
    }
  }

  /** Matching a packet's rows is matching the first accepted row, then
      the rest. */
  lemma MatchInputsStep(nChannelsFee: nat, cache: Cache, queues: Queues, main: seq<u64>, rows: seq<WaveformRow>)
    requires |rows| > 0
    ensures rows[0].channel >= nChannelsFee ==>
              MatchInputs(nChannelsFee, rows) == MatchInputs(nChannelsFee, rows[1..])
    ensures rows[0].channel < nChannelsFee ==>
              var s := Match(cache, queues, main, rows[0].fee, ToU32(rows[0].bco));
              var r := Run(cache, queues, main, MatchInputs(nChannelsFee, rows));
              var r' := Run(s.cache, s.queues, main, MatchInputs(nChannelsFee, rows[1..]));
              r.cache == r'.cache && r.queues == r'.queues && r.outcomes == [s.outcome] + r'.outcomes
  {
    var inputs := MatchInputs(nChannelsFee, rows[1..]);
    if rows[0].channel < nChannelsFee {
      assert MatchInputs(nChannelsFee, rows) == [(rows[0].fee, ToU32(rows[0].bco))] + inputs;
      RunCons(cache, queues, main, (rows[0].fee, ToU32(rows[0].bco)), inputs);
    } else {
      assert MatchInputs(nChannelsFee, rows) == [] + inputs;
    }
  }

  datatype RowsResult = RowsResult(
    state: PacketState,
    samples: seq<Sample>,
    waveforms: seq<Waveform>,
    orphanReports: seq<(nat, u32)>)

  /** The waveform loop of one packet. */
  function ProcessRows(cfg: Config, svc: Services, packetId: int, main: seq<u64>,
                       st: PacketState, rows: seq<WaveformRow>): (r: RowsResult)
    // the matcher state evolves exactly as the matcher run over the accepted rows
    ensures var run := Run(st.cache, st.queues, main, MatchInputs(cfg.nChannelsFee, rows));
            r.state.cache == run.cache && r.state.queues == run.queues
    // every sample carries a consistent masked clock
    ensures forall s :: s in r.samples ==> MaskConsistent(s)
    ensures |r.waveforms| == (if cfg.evalWaveform then |MatchInputs(cfg.nChannelsFee, rows)| else 0)
    decreases |rows|
  {
    if |rows| == 0 then RowsResult(st, [], [], [])
    else
      var one := ProcessRow(cfg, svc, packetId, main, st, rows[0]);
      var rest := ProcessRows(cfg, svc, packetId, main, one.state, rows[1..]);
      var report := if one.orphanReported then [(rows[0].fee, ToU32(rows[0].bco))] else [];
      MatchInputsStep(cfg.nChannelsFee, st.cache, st.queues, main, rows);
      RowsResult(rest.state, one.samples + rest.samples, one.waveforms + rest.waveforms,
                 report + rest.orphanReports)
  }

  /** Orphan reports within a packet are for pairs not yet in the orphan
      set when the packet started, and end up in it; the set only grows,
      and nothing is reported or recorded unless verbose. */
  lemma {:induction false} OrphanReportsFresh(cfg: Config, svc: Services, packetId: int, main: seq<u64>,
                                              st: PacketState, rows: seq<WaveformRow>)
    ensures var r := ProcessRows(cfg, svc, packetId, main, st, rows);
            && st.orphans <= r.state.orphans
            && (forall p :: p in r.orphanReports ==> p in r.state.orphans && p !in st.orphans)
            && (!cfg.verbose ==> r.orphanReports == [] && r.state.orphans == st.orphans)
    decreases |rows|
  {
    if |rows| > 0 {
      var one := ProcessRow(cfg, svc, packetId, main, st, rows[0]);
      RowOrphanTracking(cfg, svc, packetId, main, st, rows[0]);
      ProcessRowsCons(cfg, svc, packetId, main, st, rows);
      OrphanReportsFresh(cfg, svc, packetId, main, one.state, rows[1..]);
    }
  }

  /** Within a packet each orphan (FEE, FEE clock) pair is reported at most
      once. */
  lemma {:induction false} OrphanReportsOnce(cfg: Config, svc: Services, packetId: int, main: seq<u64>,
                                             st: PacketState, rows: seq<WaveformRow>)
    ensures var r := ProcessRows(cfg, svc, packetId, main, st, rows);
            forall i, j :: 0 <= i < j < |r.orphanReports| ==> r.orphanReports[i] != r.orphanReports[j]
    decreases |rows|
  {
    if |rows| > 0 {
      var one := ProcessRow(cfg, svc, packetId, main, st, rows[0]);
      var rest := ProcessRows(cfg, svc, packetId, main, one.state, rows[1..]).orphanReports;
      var x := (rows[0].fee, ToU32(rows[0].bco));
      var h := if one.orphanReported then [x] else [];
      ProcessRowsCons(cfg, svc, packetId, main, st, rows);
      OrphanReportsOnce(cfg, svc, packetId, main, one.state, rows[1..]);
      if one.orphanReported {
        RowOrphanTracking(cfg, svc, packetId, main, st, rows[0]);
        OrphanReportsFresh(cfg, svc, packetId, main, one.state, rows[1..]);
        assert x !in rest;
      }
      PrependFreshKeepsDistinct(h, rest);
    }
  }

  /** Putting at most one value not already present in front of a sequence
      without repeats gives a sequence without repeats. */
  lemma PrependFreshKeepsDistinct<T>(h: seq<T>, xs: seq<T>)
    requires |h| <= 1 && forall x :: x in h ==> x !in xs
    requires forall i, j :: 0 <= i < j < |xs| ==> xs[i] != xs[j]
    ensures forall i, j :: 0 <= i < j < |h + xs| ==> (h + xs)[i] != (h + xs)[j]
  {
    forall i, j | 0 <= i < j < |h + xs| ensures (h + xs)[i] != (h + xs)[j] {
      if i < |h| {
        assert (h + xs)[i] in h && (h + xs)[j] == xs[j - |h|];
      }
    }
  }

  /** One step of the waveform loop: the first row, then the rest. */
  lemma ProcessRowsCons(cfg: Config, svc: Services, packetId: int, main: seq<u64>,
                        st: PacketState, rows: seq<WaveformRow>)
    requires |rows| > 0
    ensures var one := ProcessRow(cfg, svc, packetId, main, st, rows[0]);
            var rest := ProcessRows(cfg, svc, packetId, main, one.state, rows[1..]);
            var report := if one.orphanReported then [(rows[0].fee, ToU32(rows[0].bco))] else [];
            ProcessRows(cfg, svc, packetId, main, st, rows)
              == RowsResult(rest.state, one.samples + rest.samples, one.waveforms + rest.waveforms,
                            report + rest.orphanReports)
  {
  }

  /** The waveform loop after its first row: what the first row emits comes
      first; an accepted first row is the matcher's first occurrence, and a
      skipped one leaves the state and the matcher run alone. */
  lemma RowsStep(cfg: Config, svc: Services, packetId: int, main: seq<u64>,
                 st: PacketState, rows: seq<WaveformRow>)
    requires |rows| > 0
    ensures var n := cfg.nChannelsFee;
            var one := ProcessRow(cfg, svc, packetId, main, st, rows[0]);
            var all := ProcessRows(cfg, svc, packetId, main, st, rows);
            var rest := ProcessRows(cfg, svc, packetId, main, one.state, rows[1..]);
            var run := Run(st.cache, st.queues, main, MatchInputs(n, rows));
            var run' := Run(one.state.cache, one.state.queues, main, MatchInputs(n, rows[1..]));
            && all.samples == one.samples + rest.samples
            && all.waveforms == one.waveforms + rest.waveforms
            && (rows[0].channel < n ==>
                  && Accepted(n, rows) == [rows[0]] + Accepted(n, rows[1..])
                  && run.outcomes == [Match(st.cache, st.queues, main, rows[0].fee, ToU32(rows[0].bco)).outcome]
                                     + run'.outcomes)
            && (rows[0].channel >= n ==>
                  && Accepted(n, rows) == Accepted(n, rows[1..])
                  && one.state == st && one.samples == [] && one.waveforms == []
                  && run.outcomes == run'.outcomes)
  {
    ProcessRowsCons(cfg, svc, packetId, main, st, rows);
    MatchInputsStep(cfg.nChannelsFee, st.cache, st.queues, main, rows);
  }

  /** What the waveform loop emits for the accepted rows `acc` when the
      matcher gives them the outcomes `outs`: each row's samples under its
      clock, back to back in row order. */
  function RowsSamples(cfg: Config, svc: Services, packetId: int,
                       acc: seq<WaveformRow>, outs: seq<Outcome>): seq<Sample>
    requires |outs| == |acc|
    decreases |acc|
  {
    if |acc| == 0 then []
    else RowSamples(cfg, svc, packetId, acc[0], AssignedBco(outs[0]))
         + RowsSamples(cfg, svc, packetId, acc[1..], outs[1..])
  }

  /** The peak waveforms of the accepted rows `acc` under the clocks of the
      outcomes `outs`, one per row, in row order. */
  function RowsWaveforms(cfg: Config, svc: Services, packetId: int,
                         acc: seq<WaveformRow>, outs: seq<Outcome>): (ws: seq<Waveform>)
    requires |outs| == |acc|
    ensures |ws| == |acc|
    decreases |acc|
  {
    if |acc| == 0 then []
    else [RowWaveform(cfg, svc, packetId, acc[0], AssignedBco(outs[0]))]
         + RowsWaveforms(cfg, svc, packetId, acc[1..], outs[1..])
  }

  /** The `k`-th of those waveforms is the `k`-th row's. */
  lemma {:induction false} RowsWaveformsAt(cfg: Config, svc: Services, packetId: int,
                                           acc: seq<WaveformRow>, outs: seq<Outcome>, k: nat)
    requires |outs| == |acc| && k < |acc|
    ensures RowsWaveforms(cfg, svc, packetId, acc, outs)[k] == RowWaveform(cfg, svc, packetId, acc[k], AssignedBco(outs[k]))
    decreases |acc|
  {
    assert acc == [acc[0]] + acc[1..] && outs == [outs[0]] + outs[1..];
    RowsWaveformsCons(cfg, svc, packetId, acc[0], acc[1..], outs[0], outs[1..]);
    if k > 0 {
      assert acc[1..][k - 1] == acc[k] && outs[1..][k - 1] == outs[k];
      RowsWaveformsAt(cfg, svc, packetId, acc[1..], outs[1..], k - 1);
    }
  }

  /** Putting one more accepted row in front puts its samples in front. */
  lemma RowsSamplesCons(cfg: Config, svc: Services, packetId: int, row: WaveformRow, acc: seq<WaveformRow>,
                        o: Outcome, outs: seq<Outcome>)
    requires |outs| == |acc|
    ensures RowsSamples(cfg, svc, packetId, [row] + acc, [o] + outs)
            == RowSamples(cfg, svc, packetId, row, AssignedBco(o)) + RowsSamples(cfg, svc, packetId, acc, outs)
  {
    assert ([row] + acc)[1..] == acc;
    assert ([o] + outs)[1..] == outs;
  }

  /** Putting one more accepted row in front puts its waveform in front. */
  lemma RowsWaveformsCons(cfg: Config, svc: Services, packetId: int, row: WaveformRow, acc: seq<WaveformRow>,
                          o: Outcome, outs: seq<Outcome>)
    requires |outs| == |acc|
    ensures RowsWaveforms(cfg, svc, packetId, [row] + acc, [o] + outs)
            == [RowWaveform(cfg, svc, packetId, row, AssignedBco(o))] + RowsWaveforms(cfg, svc, packetId, acc, outs)
  {
    assert ([row] + acc)[1..] == acc;
    assert ([o] + outs)[1..] == outs;
  }

  /** The waveform loop emits exactly the samples of its accepted rows,
      each row's under the LVL1 clock the matcher run over the accepted rows
      gives it, and (when waveforms are evaluated) their peak waveforms, all
      in row order. */
  lemma {:induction false} RowsEmitExactly(cfg: Config, svc: Services, packetId: int, main: seq<u64>,
                                           st: PacketState, rows: seq<WaveformRow>)
    ensures var r := ProcessRows(cfg, svc, packetId, main, st, rows);
            var run := Run(st.cache, st.queues, main, MatchInputs(cfg.nChannelsFee, rows));
            var acc := Accepted(cfg.nChannelsFee, rows);
            && r.samples == RowsSamples(cfg, svc, packetId, acc, run.outcomes)
            && r.waveforms == (if cfg.evalWaveform then RowsWaveforms(cfg, svc, packetId, acc, run.outcomes) else [])
    decreases |rows|
  {
    if |rows| > 0 {
      var n := cfg.nChannelsFee;
      var one := ProcessRow(cfg, svc, packetId, main, st, rows[0]);
      var run' := Run(one.state.cache, one.state.queues, main, MatchInputs(n, rows[1..]));
      RowsStep(cfg, svc, packetId, main, st, rows);
      RowsEmitExactly(cfg, svc, packetId, main, one.state, rows[1..]);
      if rows[0].channel < n {
        var o := Match(st.cache, st.queues, main, rows[0].fee, ToU32(rows[0].bco)).outcome;
        RowsSamplesCons(cfg, svc, packetId, rows[0], Accepted(n, rows[1..]), o, run'.outcomes);
        RowsWaveformsCons(cfg, svc, packetId, rows[0], Accepted(n, rows[1..]), o, run'.outcomes);
      }
    }
  }

  /** Every valid value of every accepted row is among the rows' samples,
      under that row's clock. */
  lemma {:induction false} RowsSamplesHave(cfg: Config, svc: Services, packetId: int,
                                           acc: seq<WaveformRow>, outs: seq<Outcome>, k: nat, j: nat)
    requires |outs| == |acc| && k < |acc|
    requires j < ScanLength(acc[k]) && ToU16(acc[k].adcAt(j)) != cfg.adcInvalid
    ensures HasSample(svc, packetId, acc[k], AssignedBco(outs[k]), RowsSamples(cfg, svc, packetId, acc, outs), j)
    decreases |acc|
  {
    var x := StampedSample(svc, packetId, acc[k], AssignedBco(outs[k]), j);
    var head := RowSamples(cfg, svc, packetId, acc[0], AssignedBco(outs[0]));
    var tail := RowsSamples(cfg, svc, packetId, acc[1..], outs[1..]);
    assert RowsSamples(cfg, svc, packetId, acc, outs) == head + tail;
    if k == 0 {
      assert x in head;
      InConcat(x, head, tail);
    } else {
      assert acc[1..][k - 1] == acc[k] && outs[1..][k - 1] == outs[k];
      RowsSamplesHave(cfg, svc, packetId, acc[1..], outs[1..], k - 1, j);
      InConcat(x, head, tail);
    }
  }

  /** An element of either part of a concatenation is in the concatenation. */
  lemma InConcat<T>(x: T, front: seq<T>, back: seq<T>)
    ensures x in front ==> x in front + back
    ensures x in back ==> x in front + back
  {
    if x in back {
      var i :| 0 <= i < |back| && back[i] == x;
      assert (front + back)[|front| + i] == x;
    }
  }

  /** The row and the value a sample of the rows comes from. */
  lemma {:induction false} RowsSampleSource(cfg: Config, svc: Services, packetId: int,
                                            acc: seq<WaveformRow>, outs: seq<Outcome>, s: Sample)
    returns (k: nat, j: nat)
    requires |outs| == |acc| && s in RowsSamples(cfg, svc, packetId, acc, outs)
    ensures k < |acc| && j < ScanLength(acc[k]) && ToU16(acc[k].adcAt(j)) != cfg.adcInvalid
    ensures s == StampedSample(svc, packetId, acc[k], AssignedBco(outs[k]), j)
    decreases |acc|
  {
    var head := RowSamples(cfg, svc, packetId, acc[0], AssignedBco(outs[0]));
    var tail := RowsSamples(cfg, svc, packetId, acc[1..], outs[1..]);
    assert RowsSamples(cfg, svc, packetId, acc, outs) == head + tail;
    var first := ConcatSide(s, head, tail);
    if first {
      var i :| 0 <= i < |head| && head[i] == s;
      k, j := 0, s.sample as int;
    } else {
      var k', j' := RowsSampleSource(cfg, svc, packetId, acc[1..], outs[1..], s);
      assert acc[1..][k'] == acc[k' + 1] && outs[1..][k'] == outs[k' + 1];
      k, j := k' + 1, j';
    }
  }

  /** Conversely, every sample of the rows is a valid value of one of them,
      under that row's clock. */
  lemma RowsSamplesAreValues(cfg: Config, svc: Services, packetId: int,
                             acc: seq<WaveformRow>, outs: seq<Outcome>, s: Sample)
    requires |outs| == |acc| && s in RowsSamples(cfg, svc, packetId, acc, outs)
    ensures exists k, j :: && 0 <= k < |acc| && 0 <= j < ScanLength(acc[k])
                           && ToU16(acc[k].adcAt(j)) != cfg.adcInvalid
                           && s == StampedSample(svc, packetId, acc[k], AssignedBco(outs[k]), j)
  {
    var k, j := RowsSampleSource(cfg, svc, packetId, acc, outs, s);
  }

  /** No sample is dropped: every valid ADC value of every accepted row is
      among the loop's samples, under the LVL1 clock the matcher run gives
      that row (0 for an orphan). */
  lemma RowsEmitEveryValidSample(cfg: Config, svc: Services, packetId: int, main: seq<u64>,
                                 st: PacketState, rows: seq<WaveformRow>, k: nat, j: nat)
    requires k < |Accepted(cfg.nChannelsFee, rows)|
    requires j < ScanLength(Accepted(cfg.nChannelsFee, rows)[k])
    requires ToU16(Accepted(cfg.nChannelsFee, rows)[k].adcAt(j)) != cfg.adcInvalid
    ensures var run := Run(st.cache, st.queues, main, MatchInputs(cfg.nChannelsFee, rows));
            HasSample(svc, packetId, Accepted(cfg.nChannelsFee, rows)[k], AssignedBco(run.outcomes[k]),
                      ProcessRows(cfg, svc, packetId, main, st, rows).samples, j)
  {
    var run := Run(st.cache, st.queues, main, MatchInputs(cfg.nChannelsFee, rows));
    RowsEmitExactly(cfg, svc, packetId, main, st, rows);
    RowsSamplesHave(cfg, svc, packetId, Accepted(cfg.nChannelsFee, rows), run.outcomes, k, j);
  }

  /** One waveform per accepted row, in row order: the `k`-th waveform is
      the peak waveform of the `k`-th accepted row, under the LVL1 clock the
      matcher run gives that row. */
  lemma RowsWaveformsArePeaks(cfg: Config, svc: Services, packetId: int, main: seq<u64>,
                              st: PacketState, rows: seq<WaveformRow>, k: nat)
    requires cfg.evalWaveform && k < |Accepted(cfg.nChannelsFee, rows)|
    ensures var r := ProcessRows(cfg, svc, packetId, main, st, rows);
            var run := Run(st.cache, st.queues, main, MatchInputs(cfg.nChannelsFee, rows));
            && |r.waveforms| == |Accepted(cfg.nChannelsFee, rows)|
            && IsRowWaveform(cfg, svc, packetId, Accepted(cfg.nChannelsFee, rows)[k],
                             AssignedBco(run.outcomes[k]), r.waveforms[k])
  {
    var run := Run(st.cache, st.queues, main, MatchInputs(cfg.nChannelsFee, rows));
    RowsEmitExactly(cfg, svc, packetId, main, st, rows);
    RowsWaveformsAt(cfg, svc, packetId, Accepted(cfg.nChannelsFee, rows), run.outcomes, k);
    RowWaveformIsRowPeak(cfg, svc, packetId, Accepted(cfg.nChannelsFee, rows)[k], AssignedBco(run.outcomes[k]));
  }

  datatype PacketResult = PacketResult(
    cache: Cache,
    bcoCounts: map<u64, nat>,
    taggers: seq<TaggerInfo>,
    samples: seq<Sample>,
    waveforms: seq<Waveform>,
    orphanReports: seq<(nat, u32)>)

  /** The LVL1 candidate list of a packet. */
  function PacketLvl1Bcos(packetId: int, p: Packet): seq<u64> {
    Bcos(Lvl1Only(TaggerRecords(packetId, p.taggers)))
  }

  /** The matcher run of a packet: from the anchors it is handed and empty
      queues, over its accepted rows, against its LVL1 list. */
  function PacketRun(cfg: Config, cache: Cache, packetId: int, p: Packet): (run: RunResult)
    ensures |run.outcomes| == |Accepted(cfg.nChannelsFee, p.waveforms)|
  {
    Run(cache, map[], PacketLvl1Bcos(packetId, p), MatchInputs(cfg.nChannelsFee, p.waveforms))
  }

  /** One packet: taggers first, then, when matching is needed, the
      waveforms with new per-packet queues and orphan set. */
  function ProcessPacket(cfg: Config, svc: Services, cache: Cache, counts: map<u64, nat>,
                         packetId: int, p: Packet): (r: PacketResult)
    ensures r.taggers == if cfg.evalTagger then TaggerRecords(packetId, p.taggers) else []
    ensures !cfg.EvalMatching() ==>
              r.cache == cache && r.bcoCounts == counts && r.samples == [] && r.waveforms == []
    ensures forall s :: s in r.samples ==> MaskConsistent(s)
    // one waveform per row the loop accepts
    ensures cfg.evalWaveform ==> |r.waveforms| == |Accepted(cfg.nChannelsFee, p.waveforms)|
  {
    var c := Collect(packetId, p.taggers, cfg.evalTagger, cfg.EvalMatching());
    if cfg.EvalMatching() then
      var rr := ProcessRows(cfg, svc, packetId, c.lvl1Bcos, PacketState(cache, counts, map[], {}), p.waveforms);
      PacketResult(rr.state.cache, rr.state.bcoCounts, c.taggers, rr.samples, rr.waveforms, rr.orphanReports)
    else
      PacketResult(cache, counts, c.taggers, [], [], [])
  }

  /** With matching on, a packet hands on the anchors its matcher run
      leaves, and emits exactly its accepted rows' samples and (when
      waveforms are evaluated) peak waveforms, each row under the clock that
      run gives it, in row order. */
  lemma PacketEmitsExactly(cfg: Config, svc: Services, cache: Cache, counts: map<u64, nat>,
                           packetId: int, p: Packet)
    requires cfg.EvalMatching()
    ensures var r := ProcessPacket(cfg, svc, cache, counts, packetId, p);
            var run := PacketRun(cfg, cache, packetId, p);
            var acc := Accepted(cfg.nChannelsFee, p.waveforms);
            && r.cache == run.cache
            && r.samples == RowsSamples(cfg, svc, packetId, acc, run.outcomes)
            && r.waveforms == (if cfg.evalWaveform then RowsWaveforms(cfg, svc, packetId, acc, run.outcomes) else [])
  {
    RowsEmitExactly(cfg, svc, packetId, PacketLvl1Bcos(packetId, p),
                    PacketState(cache, counts, map[], {}), p.waveforms);
  }

  /** Within a packet, the LVL1 clocks each FEE takes from the queue are an
      in-order prefix of the packet's LVL1 list. */
  lemma PacketConsumesLvl1Prefix(cfg: Config, cache: Cache, packetId: int, p: Packet, f: nat)
    ensures var main := PacketLvl1Bcos(packetId, p);
            var inputs := MatchInputs(cfg.nChannelsFee, p.waveforms);
            var taken := PoppedFor(f, inputs, Run(cache, map[], main, inputs).outcomes);
            |taken| <= |main| && taken == main[..|taken|]
  {
    PacketConsumesPrefix(cache, PacketLvl1Bcos(packetId, p), MatchInputs(cfg.nChannelsFee, p.waveforms), f);
  }

  /** Every valid ADC value of every accepted row of a packet is among the
      packet's samples, under the LVL1 clock the packet's matcher run gives
      the row. */
  lemma PacketEmitsEveryValidSample(cfg: Config, svc: Services, cache: Cache, counts: map<u64, nat>,
                                    packetId: int, p: Packet, k: nat, j: nat)
    requires cfg.EvalMatching()
    requires k < |Accepted(cfg.nChannelsFee, p.waveforms)|
    requires j < ScanLength(Accepted(cfg.nChannelsFee, p.waveforms)[k])
    requires ToU16(Accepted(cfg.nChannelsFee, p.waveforms)[k].adcAt(j)) != cfg.adcInvalid
    ensures HasSample(svc, packetId, Accepted(cfg.nChannelsFee, p.waveforms)[k],
                      AssignedBco(PacketRun(cfg, cache, packetId, p).outcomes[k]),
                      ProcessPacket(cfg, svc, cache, counts, packetId, p).samples, j)
  {
    RowsEmitEveryValidSample(cfg, svc, packetId, PacketLvl1Bcos(packetId, p),
                             PacketState(cache, counts, map[], {}), p.waveforms, k, j);
  }

  /** A packet's `k`-th waveform is the peak waveform of its `k`-th accepted
      row, under the LVL1 clock the packet's matcher run gives that row. */
  lemma PacketWaveformsArePeaks(cfg: Config, svc: Services, cache: Cache, counts: map<u64, nat>,
                                packetId: int, p: Packet, k: nat)
    requires cfg.evalWaveform && k < |Accepted(cfg.nChannelsFee, p.waveforms)|
    ensures var r := ProcessPacket(cfg, svc, cache, counts, packetId, p);
            k < |r.waveforms|
            && IsRowWaveform(cfg, svc, packetId, Accepted(cfg.nChannelsFee, p.waveforms)[k],
                             AssignedBco(PacketRun(cfg, cache, packetId, p).outcomes[k]), r.waveforms[k])
  {
    RowsWaveformsArePeaks(cfg, svc, packetId, PacketLvl1Bcos(packetId, p),
                          PacketState(cache, counts, map[], {}), p.waveforms, k);
  }

  // ---------------------------------------------------------------------
  // One event

  /** The tagger records of every present packet, in packet-id order. */
  function AllTaggers(ids: seq<int>, ev: Event): seq<TaggerInfo>
    decreases |ids|
  {
    if |ids| == 0 then []
    else (if ids[0] in ev.packets then TaggerRecords(ids[0], ev.packets[ids[0]].taggers) else [])
         + AllTaggers(ids[1..], ev)
  }

  /** The number of rows the waveform loops of the present packets accept. */
  function AcceptedCount(nChannelsFee: nat, ev: Event, ids: seq<int>): nat
    decreases |ids|
  {
    if |ids| == 0 then 0
    else (if ids[0] in ev.packets then |Accepted(nChannelsFee, ev.packets[ids[0]].waveforms)| else 0)
         + AcceptedCount(nChannelsFee, ev, ids[1..])
  }

  /** The anchors the first configured packet hands on. */
  function FirstCache(cfg: Config, cache: Cache, ev: Event, ids: seq<int>): Cache
    requires |ids| > 0
  {
    if cfg.EvalMatching() && ids[0] in ev.packets
    then PacketRun(cfg, cache, ids[0], ev.packets[ids[0]]).cache
    else cache
  }

  /** The anchors the first packet hands on depend on that packet only. */
  lemma FirstCacheSameHead(cfg: Config, cache: Cache, ev: Event, ids: seq<int>, ids': seq<int>)
    requires |ids| > 0 && |ids'| > 0 && ids[0] == ids'[0]
    ensures FirstCache(cfg, cache, ev, ids) == FirstCache(cfg, cache, ev, ids')
  {
  }

  /** The anchors the packet loop leaves: each present packet's matcher run
      starts from the anchors the one before it left; without matching they
      are untouched. */
  function LoopCache(cfg: Config, cache: Cache, ev: Event, ids: seq<int>): Cache
    decreases |ids|
  {
    if |ids| == 0 then cache
    else LoopCache(cfg, FirstCache(cfg, cache, ev, ids), ev, ids[1..])
  }

  /** What the packet loop emits as samples for packet `id` when it is
      handed the anchors `cache`: with matching on and the packet present,
      its accepted rows' samples under the clocks of its matcher run. */
  function PacketSamples(cfg: Config, svc: Services, cache: Cache, ev: Event, id: int): seq<Sample> {
    if cfg.EvalMatching() && id in ev.packets
    then RowsSamples(cfg, svc, id, Accepted(cfg.nChannelsFee, ev.packets[id].waveforms),
                     PacketRun(cfg, cache, id, ev.packets[id]).outcomes)
    else []
  }

  /** Likewise for its waveforms, with waveform evaluation on. */
  function PacketWaveforms(cfg: Config, svc: Services, cache: Cache, ev: Event, id: int): (ws: seq<Waveform>)
    ensures |ws| == if cfg.evalWaveform && id in ev.packets then |Accepted(cfg.nChannelsFee, ev.packets[id].waveforms)| else 0
  {
    if cfg.evalWaveform && id in ev.packets
    then RowsWaveforms(cfg, svc, id, Accepted(cfg.nChannelsFee, ev.packets[id].waveforms),
                       PacketRun(cfg, cache, id, ev.packets[id]).outcomes)
    else []
  }

  /** The samples the packet loop emits from the anchors `cache`: every
      present packet's accepted rows' samples, each row under the clock its
      packet's run gives it, in packet order. */
  function LoopSamples(cfg: Config, svc: Services, cache: Cache, ev: Event, ids: seq<int>): seq<Sample>
    decreases |ids|
  {
    if |ids| == 0 then []
    else PacketSamples(cfg, svc, cache, ev, ids[0]) + LoopSamples(cfg, svc, FirstCache(cfg, cache, ev, ids), ev, ids[1..])
  }

  /** The waveforms the packet loop emits from the anchors `cache`: one
      peak waveform per accepted row of every present packet, in packet
      order. */
  function LoopWaveforms(cfg: Config, svc: Services, cache: Cache, ev: Event, ids: seq<int>): (ws: seq<Waveform>)
    ensures |ws| == if cfg.evalWaveform then AcceptedCount(cfg.nChannelsFee, ev, ids) else 0
    decreases |ids|
  {
    if |ids| == 0 then []
    else PacketWaveforms(cfg, svc, cache, ev, ids[0]) + LoopWaveforms(cfg, svc, FirstCache(cfg, cache, ev, ids), ev, ids[1..])
  }

  /** `k` is an accepted row of the `i`-th configured packet, which is
      present. */
  predicate IsLoopRow(cfg: Config, ev: Event, ids: seq<int>, i: int, k: int) {
    0 <= i < |ids| && ids[i] in ev.packets && 0 <= k < |Accepted(cfg.nChannelsFee, ev.packets[ids[i]].waveforms)|
  }

  function LoopRow(cfg: Config, ev: Event, ids: seq<int>, i: int, k: int): WaveformRow
    requires IsLoopRow(cfg, ev, ids, i, k)
  {
    Accepted(cfg.nChannelsFee, ev.packets[ids[i]].waveforms)[k]
  }

  /** The LVL1 clock the packet loop gives the `k`-th accepted row of the
      `i`-th configured packet: its outcome in the packet's matcher run,
      which starts from the anchors the packets before it leave. */
  function LoopClock(cfg: Config, cache: Cache, ev: Event, ids: seq<int>, i: int, k: int): u64
    requires IsLoopRow(cfg, ev, ids, i, k)
  {
    AssignedBco(PacketRun(cfg, LoopCache(cfg, cache, ev, ids[..i]), ids[i], ev.packets[ids[i]]).outcomes[k])
  }

  /** Value `j` of that row is read and valid. */
  predicate IsLoopValue(cfg: Config, ev: Event, ids: seq<int>, i: int, k: int, j: int) {
    && IsLoopRow(cfg, ev, ids, i, k)
    && 0 <= j < ScanLength(LoopRow(cfg, ev, ids, i, k))
    && ToU16(LoopRow(cfg, ev, ids, i, k).adcAt(j)) != cfg.adcInvalid
  }

  /** The sample the packet loop emits for that value. */
  function LoopSample(cfg: Config, svc: Services, cache: Cache, ev: Event, ids: seq<int>, i: int, k: int, j: int): Sample
    requires IsLoopValue(cfg, ev, ids, i, k, j)
  {
    StampedSample(svc, ids[i], LoopRow(cfg, ev, ids, i, k), LoopClock(cfg, cache, ev, ids, i, k), j)
  }

  /** The waveform the packet loop emits for that row. */
  function LoopWaveform(cfg: Config, svc: Services, cache: Cache, ev: Event, ids: seq<int>, i: int, k: int): Waveform
    requires IsLoopRow(cfg, ev, ids, i, k)
  {
    RowWaveform(cfg, svc, ids[i], LoopRow(cfg, ev, ids, i, k), LoopClock(cfg, cache, ev, ids, i, k))
  }

  /** Dropping the first configured packet: row `k` of packet `i` becomes
      row `k` of packet `i - 1`, starting from the anchors the first packet
      hands on, with the first packet's rows no longer counted before it. */
  lemma LoopShift(cfg: Config, cache: Cache, ev: Event, ids: seq<int>, i: int, k: int)
    requires cfg.EvalMatching() && i > 0 && IsLoopRow(cfg, ev, ids, i, k)
    ensures IsLoopRow(cfg, ev, ids[1..], i - 1, k)
    ensures LoopRow(cfg, ev, ids, i, k) == LoopRow(cfg, ev, ids[1..], i - 1, k)
    ensures LoopClock(cfg, cache, ev, ids, i, k)
            == LoopClock(cfg, FirstCache(cfg, cache, ev, ids), ev, ids[1..], i - 1, k)
    ensures AcceptedCount(cfg.nChannelsFee, ev, ids[..i])
            == (if ids[0] in ev.packets then |Accepted(cfg.nChannelsFee, ev.packets[ids[0]].waveforms)| else 0)
               + AcceptedCount(cfg.nChannelsFee, ev, ids[1..][..i - 1])
  {
    assert ids[..i][0] == ids[0];
    assert ids[..i][1..] == ids[1..][..i - 1];
  }

  /** What the packet loop emits, in emission order. */
  datatype Emitted = Emitted(
    cache: Cache,
    bcoCounts: map<u64, nat>,
    taggers: seq<TaggerInfo>,
    samples: seq<Sample>,
    waveforms: seq<Waveform>)

  /** The packet loop: missing packets are skipped; the anchors and counts
      carry from packet to packet. */
  function ProcessPackets(cfg: Config, svc: Services, cache: Cache, counts: map<u64, nat>,
                          ev: Event, ids: seq<int>): (r: Emitted)
    ensures r.taggers == if cfg.evalTagger then AllTaggers(ids, ev) else []
    ensures !cfg.EvalMatching() ==> r.cache == cache && r.samples == [] && r.waveforms == []
    ensures forall s :: s in r.samples ==> MaskConsistent(s)
    // one waveform per accepted row of every present packet
    ensures cfg.evalWaveform ==> |r.waveforms| == AcceptedCount(cfg.nChannelsFee, ev, ids)
    decreases |ids|
  {
    if |ids| == 0 then Emitted(cache, counts, [], [], [])
    else if ids[0] !in ev.packets then
      assert AllTaggers(ids, ev) == AllTaggers(ids[1..], ev);
      assert AcceptedCount(cfg.nChannelsFee, ev, ids) == AcceptedCount(cfg.nChannelsFee, ev, ids[1..]);
      ProcessPackets(cfg, svc, cache, counts, ev, ids[1..])
    else
      var p := ev.packets[ids[0]];
      var pr := ProcessPacket(cfg, svc, cache, counts, ids[0], p);
      var rest := ProcessPackets(cfg, svc, pr.cache, pr.bcoCounts, ev, ids[1..]);
      assert AllTaggers(ids, ev) == TaggerRecords(ids[0], p.taggers) + AllTaggers(ids[1..], ev);
      assert AcceptedCount(cfg.nChannelsFee, ev, ids)
             == |Accepted(cfg.nChannelsFee, p.waveforms)| + AcceptedCount(cfg.nChannelsFee, ev, ids[1..]);
      Emitted(rest.cache, rest.bcoCounts, pr.taggers + rest.taggers,
              pr.samples + rest.samples, pr.waveforms + rest.waveforms)
  }

  /** One step of the packet loop: the first configured packet hands on
      the anchors of its matcher run and emits its samples and waveforms
      before the rest. */
  lemma PacketsCons(cfg: Config, svc: Services, cache: Cache, counts: map<u64, nat>, ev: Event, ids: seq<int>)
    requires |ids| > 0
    ensures var r := ProcessPackets(cfg, svc, cache, counts, ev, ids);
            var counts' := if ids[0] in ev.packets
                           then ProcessPacket(cfg, svc, cache, counts, ids[0], ev.packets[ids[0]]).bcoCounts
                           else counts;
            var rest := ProcessPackets(cfg, svc, FirstCache(cfg, cache, ev, ids), counts', ev, ids[1..]);
            && r.cache == rest.cache
            && r.samples == PacketSamples(cfg, svc, cache, ev, ids[0]) + rest.samples
            && r.waveforms == PacketWaveforms(cfg, svc, cache, ev, ids[0]) + rest.waveforms
  {
    if ids[0] in ev.packets {
      PacketsConsPresent(cfg, svc, cache, counts, ev, ids);
    } else {
      assert FirstCache(cfg, cache, ev, ids) == cache;
      assert PacketSamples(cfg, svc, cache, ev, ids[0]) == [] && PacketWaveforms(cfg, svc, cache, ev, ids[0]) == [];
    }
  }

  /** The step for a present first packet. */
  lemma PacketsConsPresent(cfg: Config, svc: Services, cache: Cache, counts: map<u64, nat>, ev: Event, ids: seq<int>)
    requires |ids| > 0 && ids[0] in ev.packets
    ensures var pr := ProcessPacket(cfg, svc, cache, counts, ids[0], ev.packets[ids[0]]);
            && pr.cache == FirstCache(cfg, cache, ev, ids)
            && pr.samples == PacketSamples(cfg, svc, cache, ev, ids[0])
            && pr.waveforms == PacketWaveforms(cfg, svc, cache, ev, ids[0])
  {
    if cfg.EvalMatching() {
      PacketEmitsExactly(cfg, svc, cache, counts, ids[0], ev.packets[ids[0]]);
    }
  }

  /** The packet loop leaves the anchors of the chained matcher runs and
      emits exactly the chained runs' samples and waveforms, packet after
      packet. */
  lemma {:induction false} PacketsEmitExactly(cfg: Config, svc: Services, cache: Cache,
                                              counts: map<u64, nat>, ev: Event, ids: seq<int>)
    ensures var r := ProcessPackets(cfg, svc, cache, counts, ev, ids);
            && r.cache == LoopCache(cfg, cache, ev, ids)
            && r.samples == LoopSamples(cfg, svc, cache, ev, ids)
            && r.waveforms == LoopWaveforms(cfg, svc, cache, ev, ids)
    decreases |ids|
  {
    if |ids| > 0 {
      var counts' := if ids[0] in ev.packets
                     then ProcessPacket(cfg, svc, cache, counts, ids[0], ev.packets[ids[0]]).bcoCounts
                     else counts;
      PacketsCons(cfg, svc, cache, counts, ev, ids);
      PacketsEmitExactly(cfg, svc, FirstCache(cfg, cache, ev, ids), counts', ev, ids[1..]);
    }
  }

  /** Running the packet loop over `pre` then `post` emits the waveforms
      of `pre` followed by those of `post`, started from the anchors `pre`
      leaves. */
  lemma {:induction false} LoopWaveformsAppend(cfg: Config, svc: Services, cache: Cache, ev: Event,
                                               pre: seq<int>, post: seq<int>)
    ensures LoopWaveforms(cfg, svc, cache, ev, pre + post)
            == LoopWaveforms(cfg, svc, cache, ev, pre) + LoopWaveforms(cfg, svc, LoopCache(cfg, cache, ev, pre), ev, post)
    decreases |pre|
  {
    if |pre| == 0 {
      assert pre + post == post;
    } else {
      assert (pre + post)[0] == pre[0];
      assert (pre + post)[1..] == pre[1..] + post;
      FirstCacheSameHead(cfg, cache, ev, pre + post, pre);
      LoopWaveformsAppend(cfg, svc, FirstCache(cfg, cache, ev, pre), ev, pre[1..], post);
    }
  }

  /** The loop's waveforms around the `i`-th configured packet: those of
      the packets before it, its own from the anchors they leave, then those
      of the packets after it. */
  lemma LoopWaveformsSplit(cfg: Config, svc: Services, cache: Cache, ev: Event, ids: seq<int>, i: int)
    requires 0 <= i < |ids|
    ensures var c := LoopCache(cfg, cache, ev, ids[..i]);
            LoopWaveforms(cfg, svc, cache, ev, ids)
            == LoopWaveforms(cfg, svc, cache, ev, ids[..i])
               + (PacketWaveforms(cfg, svc, c, ev, ids[i])
                  + LoopWaveforms(cfg, svc, FirstCache(cfg, c, ev, ids[i..]), ev, ids[i + 1..]))
  {
    var pre := ids[..i];
    var post := ids[i..];
    assert ids == pre + post;
    assert post[0] == ids[i] && post[1..] == ids[i + 1..];
    LoopWaveformsAppend(cfg, svc, cache, ev, pre, post);
  }

  /** Row `k` of packet `i` yields the loop's waveform at position
      `AcceptedCount` of the packets before it plus `k`. */
  lemma LoopWaveformAt(cfg: Config, svc: Services, cache: Cache, ev: Event, ids: seq<int>, i: int, k: int)
    requires cfg.evalWaveform && IsLoopRow(cfg, ev, ids, i, k)
    ensures var ws := LoopWaveforms(cfg, svc, cache, ev, ids);
            var m := AcceptedCount(cfg.nChannelsFee, ev, ids[..i]) + k;
            m < |ws| && ws[m] == LoopWaveform(cfg, svc, cache, ev, ids, i, k)
  {
    var c := LoopCache(cfg, cache, ev, ids[..i]);
    var p := ev.packets[ids[i]];
    LoopWaveformsSplit(cfg, svc, cache, ev, ids, i);
    RowsWaveformsAt(cfg, svc, ids[i], Accepted(cfg.nChannelsFee, p.waveforms), PacketRun(cfg, c, ids[i], p).outcomes, k);
    IndexInMiddle(LoopWaveforms(cfg, svc, cache, ev, ids[..i]), PacketWaveforms(cfg, svc, c, ev, ids[i]),
                  LoopWaveforms(cfg, svc, FirstCache(cfg, c, ev, ids[i..]), ev, ids[i + 1..]), k);
  }

  /** The `k`-th element of the middle part of a concatenation. */
  lemma IndexInMiddle<T>(front: seq<T>, here: seq<T>, rest: seq<T>, k: int)
    requires 0 <= k < |here|
    ensures |front| + k < |front + (here + rest)| && (front + (here + rest))[|front| + k] == here[k]
  {
  }

  /** The anchors the packet loop hands the `i`-th configured packet are
      those the first packet hands on, carried through the rest. */
  lemma LoopCacheShift(cfg: Config, cache: Cache, ev: Event, ids: seq<int>, i: int)
    requires 0 < i <= |ids|
    ensures LoopCache(cfg, cache, ev, ids[..i]) == LoopCache(cfg, FirstCache(cfg, cache, ev, ids), ev, ids[1..][..i - 1])
  {
    assert ids[..i][0] == ids[0];
    assert ids[..i][1..] == ids[1..][..i - 1];
  }

  /** The samples the `i`-th configured packet contributes to the loop. */
  function LoopPacketSamples(cfg: Config, svc: Services, cache: Cache, ev: Event, ids: seq<int>, i: int): seq<Sample>
    requires 0 <= i < |ids|
  {
    PacketSamples(cfg, svc, LoopCache(cfg, cache, ev, ids[..i]), ev, ids[i])
  }

  /** The waveforms the `i`-th configured packet contributes to the loop. */
  function LoopPacketWaveforms(cfg: Config, svc: Services, cache: Cache, ev: Event, ids: seq<int>, i: int): seq<Waveform>
    requires 0 <= i < |ids|
  {
    PacketWaveforms(cfg, svc, LoopCache(cfg, cache, ev, ids[..i]), ev, ids[i])
  }

  /** An element of a concatenation is in one of its parts; `inFront`
      says which. */
  lemma ConcatSide<T>(x: T, front: seq<T>, back: seq<T>) returns (inFront: bool)
    requires x in front + back
    ensures inFront ==> x in front
    ensures !inFront ==> x in back
  {
    inFront := x in front;
  }

  /** What the `i`-th packet after the first contributes, counted from the
      anchors the first hands on, is what the `i + 1`-th contributes. */
  lemma LoopPacketShift(cfg: Config, svc: Services, cache: Cache, ev: Event, ids: seq<int>, i: int)
    requires 0 <= i < |ids| - 1
    ensures LoopPacketSamples(cfg, svc, FirstCache(cfg, cache, ev, ids), ev, ids[1..], i)
            == LoopPacketSamples(cfg, svc, cache, ev, ids, i + 1)
    ensures LoopPacketWaveforms(cfg, svc, FirstCache(cfg, cache, ev, ids), ev, ids[1..], i)
            == LoopPacketWaveforms(cfg, svc, cache, ev, ids, i + 1)
  {
    LoopCacheShift(cfg, cache, ev, ids, i + 1);
    assert ids[1..][i] == ids[i + 1];
  }

  /** Every sample of the loop comes from one of the configured packets. */
  lemma {:induction false} LoopSamplesInPacket(cfg: Config, svc: Services, cache: Cache, ev: Event,
                                               ids: seq<int>, s: Sample)
    requires s in LoopSamples(cfg, svc, cache, ev, ids)
    ensures exists i :: 0 <= i < |ids| && s in LoopPacketSamples(cfg, svc, cache, ev, ids, i)
    decreases |ids|
  {
    var c' := FirstCache(cfg, cache, ev, ids);
    var first := ConcatSide(s, PacketSamples(cfg, svc, cache, ev, ids[0]), LoopSamples(cfg, svc, c', ev, ids[1..]));
    if first {
      assert ids[..0] == [];
      assert s in LoopPacketSamples(cfg, svc, cache, ev, ids, 0);
    } else {
      LoopSamplesInPacket(cfg, svc, c', ev, ids[1..], s);
      var i :| 0 <= i < |ids[1..]| && s in LoopPacketSamples(cfg, svc, c', ev, ids[1..], i);
      LoopPacketShift(cfg, svc, cache, ev, ids, i);
      assert s in LoopPacketSamples(cfg, svc, cache, ev, ids, i + 1);
    }
  }

  /** Every waveform of the loop comes from one of the configured packets. */
  lemma {:induction false} LoopWaveformsInPacket(cfg: Config, svc: Services, cache: Cache, ev: Event,
                                                 ids: seq<int>, w: Waveform)
    requires w in LoopWaveforms(cfg, svc, cache, ev, ids)
    ensures exists i :: 0 <= i < |ids| && w in LoopPacketWaveforms(cfg, svc, cache, ev, ids, i)
    decreases |ids|
  {
    var c' := FirstCache(cfg, cache, ev, ids);
    var first := ConcatSide(w, PacketWaveforms(cfg, svc, cache, ev, ids[0]), LoopWaveforms(cfg, svc, c', ev, ids[1..]));
    if first {
      assert ids[..0] == [];
      assert w in LoopPacketWaveforms(cfg, svc, cache, ev, ids, 0);
    } else {
      LoopWaveformsInPacket(cfg, svc, c', ev, ids[1..], w);
      var i :| 0 <= i < |ids[1..]| && w in LoopPacketWaveforms(cfg, svc, c', ev, ids[1..], i);
      LoopPacketShift(cfg, svc, cache, ev, ids, i);
      assert w in LoopPacketWaveforms(cfg, svc, cache, ev, ids, i + 1);
    }
  }

  /** Conversely, every waveform of the loop is that of some accepted row
      of some present packet. */
  lemma LoopWaveformsAreRows(cfg: Config, svc: Services, cache: Cache, ev: Event, ids: seq<int>, w: Waveform)
    requires w in LoopWaveforms(cfg, svc, cache, ev, ids)
    ensures exists i, k :: IsLoopRow(cfg, ev, ids, i, k) && w == LoopWaveform(cfg, svc, cache, ev, ids, i, k)
  {
    LoopWaveformsInPacket(cfg, svc, cache, ev, ids, w);
    var i :| 0 <= i < |ids| && w in LoopPacketWaveforms(cfg, svc, cache, ev, ids, i);
    var c := LoopCache(cfg, cache, ev, ids[..i]);
    var p := ev.packets[ids[i]];
    var acc := Accepted(cfg.nChannelsFee, p.waveforms);
    var outs := PacketRun(cfg, c, ids[i], p).outcomes;
    var here := RowsWaveforms(cfg, svc, ids[i], acc, outs);
    var k :| 0 <= k < |here| && here[k] == w;
    RowsWaveformsAt(cfg, svc, ids[i], acc, outs, k);
    assert IsLoopRow(cfg, ev, ids, i, k) && w == LoopWaveform(cfg, svc, cache, ev, ids, i, k);
  }

  /** Value `j` of row `k` of packet `i` is among the loop's samples. */
  lemma {:induction false} LoopSamplesHave(cfg: Config, svc: Services, cache: Cache, ev: Event,
                                           ids: seq<int>, i: int, k: int, j: int)
    requires cfg.EvalMatching() && IsLoopValue(cfg, ev, ids, i, k, j)
    ensures LoopSample(cfg, svc, cache, ev, ids, i, k, j) in LoopSamples(cfg, svc, cache, ev, ids)
    decreases i
  {
    if i == 0 {
      assert ids[..0] == [];
      var p := ev.packets[ids[0]];
      RowsSamplesHave(cfg, svc, ids[0], Accepted(cfg.nChannelsFee, p.waveforms),
                      PacketRun(cfg, cache, ids[0], p).outcomes, k, j);
    } else {
      LoopShift(cfg, cache, ev, ids, i, k);
      LoopSamplesHave(cfg, svc, FirstCache(cfg, cache, ev, ids), ev, ids[1..], i - 1, k, j);
    }
  }

  /** A sample the `i`-th configured packet contributes is a valid value
      of one of its accepted rows. */
  lemma PacketSampleIsValue(cfg: Config, svc: Services, cache: Cache, ev: Event, ids: seq<int>, i: int, s: Sample)
    requires 0 <= i < |ids| && s in LoopPacketSamples(cfg, svc, cache, ev, ids, i)
    ensures exists k, j :: IsLoopValue(cfg, ev, ids, i, k, j) && s == LoopSample(cfg, svc, cache, ev, ids, i, k, j)
  {
    var p := ev.packets[ids[i]];
    var acc := Accepted(cfg.nChannelsFee, p.waveforms);
    var outs := PacketRun(cfg, LoopCache(cfg, cache, ev, ids[..i]), ids[i], p).outcomes;
    var k, j := RowsSampleSource(cfg, svc, ids[i], acc, outs, s);
    assert IsLoopValue(cfg, ev, ids, i, k, j) && s == LoopSample(cfg, svc, cache, ev, ids, i, k, j);
  }

  /** Conversely, every sample of the loop is a valid value of some
      accepted row of some present packet. */
  lemma LoopSamplesAreValues(cfg: Config, svc: Services, cache: Cache, ev: Event, ids: seq<int>, s: Sample)
    requires s in LoopSamples(cfg, svc, cache, ev, ids)
    ensures exists i, k, j :: IsLoopValue(cfg, ev, ids, i, k, j) && s == LoopSample(cfg, svc, cache, ev, ids, i, k, j)
  {
    LoopSamplesInPacket(cfg, svc, cache, ev, ids, s);
    var i :| 0 <= i < |ids| && s in LoopPacketSamples(cfg, svc, cache, ev, ids, i);
    PacketSampleIsValue(cfg, svc, cache, ev, ids, i, s);
  }

  /** The packet loop in order: row `k` of present packet `i` yields the
      waveform at position `AcceptedCount` of the packets before it plus
      `k`, the row's peak waveform under the clock of its packet's matcher
      run, which starts from the anchors the earlier packets leave. */
  lemma PacketsWaveformAt(cfg: Config, svc: Services, cache: Cache, counts: map<u64, nat>,
                          ev: Event, ids: seq<int>, i: int, k: int)
    requires cfg.evalWaveform && IsLoopRow(cfg, ev, ids, i, k)
    ensures var ws := ProcessPackets(cfg, svc, cache, counts, ev, ids).waveforms;
            var m := AcceptedCount(cfg.nChannelsFee, ev, ids[..i]) + k;
            && m < |ws|
            && ws[m] == LoopWaveform(cfg, svc, cache, ev, ids, i, k)
            && IsRowWaveform(cfg, svc, ids[i], LoopRow(cfg, ev, ids, i, k), LoopClock(cfg, cache, ev, ids, i, k), ws[m])
  {
    PacketsEmitExactly(cfg, svc, cache, counts, ev, ids);
    LoopWaveformAt(cfg, svc, cache, ev, ids, i, k);
    RowWaveformIsRowPeak(cfg, svc, ids[i], LoopRow(cfg, ev, ids, i, k), LoopClock(cfg, cache, ev, ids, i, k));
  }

  /** No valid ADC value of an accepted row of a present packet is lost by
      the packet loop: it is among the emitted samples, under the clock of
      its packet's matcher run. */
  lemma PacketsEmitEveryValidSample(cfg: Config, svc: Services, cache: Cache, counts: map<u64, nat>,
                                    ev: Event, ids: seq<int>, i: int, k: int, j: int)
    requires cfg.EvalMatching() && IsLoopValue(cfg, ev, ids, i, k, j)
    ensures HasSample(svc, ids[i], LoopRow(cfg, ev, ids, i, k), LoopClock(cfg, cache, ev, ids, i, k),
                      ProcessPackets(cfg, svc, cache, counts, ev, ids).samples, j)
  {
    PacketsEmitExactly(cfg, svc, cache, counts, ev, ids);
    LoopSamplesHave(cfg, svc, cache, ev, ids, i, k, j);
  }

  /** The multimap keys. */
  function SampleKey(s: Sample): int {
    s.lvl1Bco
  }

  function WaveformKey(w: Waveform): int {
    w.lvl1Bco
  }

  datatype Status = EventOk | DiscardEvent

  datatype EventResult = EventResult(status: Status, engine: Engine, container: Container)

  /** `process_event`. */
  function ProcessEvent(cfg: Config, svc: Services, engine: Engine, c: Container, ev: Event): (r: EventResult)
    // discarded events touch nothing, not even the container
    ensures ev.eventType >= FIRST_DISCARDED_EVENT_TYPE ==> r == EventResult(DiscardEvent, engine, c)
    ensures ev.eventType < FIRST_DISCARDED_EVENT_TYPE ==>
              var e := ProcessPackets(cfg, svc, engine.cache, engine.bcoCounts, ev, cfg.packetIds);
              var ss := LoopSamples(cfg, svc, engine.cache, ev, cfg.packetIds);
              var ws := LoopWaveforms(cfg, svc, engine.cache, ev, cfg.packetIds);
              && r.status == EventOk
              && r.engine == Engine(e.cache, e.bcoCounts)
              && e.cache == LoopCache(cfg, engine.cache, ev, cfg.packetIds)
              // every tagger of every present packet, LVL1 or not
              && r.container.taggers == (if cfg.evalTagger then AllTaggers(cfg.packetIds, ev) else [])
              // samples: ordered by LVL1 clock, emission order among equal clocks,
              // and exactly the emitted ones
              && (cfg.evalSample ==>
                    && Sorted(r.container.samples, SampleKey)
                    && (forall k :: Filter(r.container.samples, SampleKey, k) == Filter(ss, SampleKey, k))
                    && multiset(r.container.samples) == multiset(ss))
              && (!cfg.evalSample ==> r.container.samples == [])
              // waveforms likewise
              && (cfg.evalWaveform ==>
                    && Sorted(r.container.waveforms, WaveformKey)
                    && (forall k :: Filter(r.container.waveforms, WaveformKey, k) == Filter(ws, WaveformKey, k))
                    && multiset(r.container.waveforms) == multiset(ws))
              && (!cfg.evalWaveform ==> r.container.waveforms == [])
              // one waveform per accepted row of every present packet
              && (cfg.evalWaveform ==> |r.container.waveforms| == AcceptedCount(cfg.nChannelsFee, ev, cfg.packetIds))
  {
    if ev.eventType >= FIRST_DISCARDED_EVENT_TYPE then EventResult(DiscardEvent, engine, c)
    else
      var e := ProcessPackets(cfg, svc, engine.cache, engine.bcoCounts, ev, cfg.packetIds);
      var sampleMap := InsertAll([], SampleKey, e.samples);
      var waveformMap := InsertAll([], WaveformKey, e.waveforms);
      PacketsEmitExactly(cfg, svc, engine.cache, engine.bcoCounts, ev, cfg.packetIds);
      StableSortByInsertion(SampleKey, e.samples);
      StableSortByInsertion(WaveformKey, e.waveforms);
      var samples := if cfg.evalSample then sampleMap else [];
      var waveforms := if cfg.evalWaveform then waveformMap else [];
      // `Container::Reset` empties the container, so after the copy loops it
      // holds exactly what they push
      EventResult(EventOk, Engine(e.cache, e.bcoCounts), Container(samples, waveforms, e.taggers))
  }

  /** The container's samples are the stable sort of the emitted samples by
      LVL1 clock: any sorted sequence that keeps each clock's samples in
      emission order is exactly the container's. */
  lemma ContainerSamplesAreStableSort(cfg: Config, svc: Services, engine: Engine, c: Container,
                                      ev: Event, other: seq<Sample>)
    requires ev.eventType < FIRST_DISCARDED_EVENT_TYPE && cfg.evalSample
    requires Sorted(other, SampleKey)
    requires forall k :: Filter(other, SampleKey, k)
                         == Filter(LoopSamples(cfg, svc, engine.cache, ev, cfg.packetIds), SampleKey, k)
    ensures ProcessEvent(cfg, svc, engine, c, ev).container.samples == other
  {
    var r := ProcessEvent(cfg, svc, engine, c, ev);
    SortedFiltersDetermine(r.container.samples, other, SampleKey);
  }

  /** End to end: for an event that is not discarded, with sample
      evaluation on, every valid ADC value of every accepted waveform row of
      every present packet ends up in the container's samples, under the
      clock of its packet's matcher run. */
  lemma EventKeepsEveryValidSample(cfg: Config, svc: Services, engine: Engine, c: Container,
                                   ev: Event, i: int, k: int, j: int)
    requires ev.eventType < FIRST_DISCARDED_EVENT_TYPE && cfg.evalSample
    requires IsLoopValue(cfg, ev, cfg.packetIds, i, k, j)
    ensures LoopSample(cfg, svc, engine.cache, ev, cfg.packetIds, i, k, j)
            in ProcessEvent(cfg, svc, engine, c, ev).container.samples
  {
    var s := LoopSample(cfg, svc, engine.cache, ev, cfg.packetIds, i, k, j);
    LoopSamplesHave(cfg, svc, engine.cache, ev, cfg.packetIds, i, k, j);
    assert s in multiset(LoopSamples(cfg, svc, engine.cache, ev, cfg.packetIds));
  }

  /** End to end, the other way: every sample in the container is a valid
      ADC value of an accepted row of a present packet, stamped under the
      clock of its packet's matcher run. */
  lemma EventSamplesAreRowValues(cfg: Config, svc: Services, engine: Engine, c: Container, ev: Event, s: Sample)
    requires ev.eventType < FIRST_DISCARDED_EVENT_TYPE
    requires s in ProcessEvent(cfg, svc, engine, c, ev).container.samples
    ensures exists i, k, j :: && IsLoopValue(cfg, ev, cfg.packetIds, i, k, j)
                              && s == LoopSample(cfg, svc, engine.cache, ev, cfg.packetIds, i, k, j)
  {
    var r := ProcessEvent(cfg, svc, engine, c, ev);
    assert s in multiset(r.container.samples);
    LoopSamplesAreValues(cfg, svc, engine.cache, ev, cfg.packetIds, s);
  }

  /** End to end for waveforms: with waveform evaluation, the peak waveform
      of every accepted row of every present packet, under the clock of its
      packet's matcher run, is in the container. */
  lemma EventKeepsEveryRowWaveform(cfg: Config, svc: Services, engine: Engine, c: Container,
                                   ev: Event, i: int, k: int)
    requires ev.eventType < FIRST_DISCARDED_EVENT_TYPE && cfg.evalWaveform
    requires IsLoopRow(cfg, ev, cfg.packetIds, i, k)
    ensures LoopWaveform(cfg, svc, engine.cache, ev, cfg.packetIds, i, k)
            in ProcessEvent(cfg, svc, engine, c, ev).container.waveforms
  {
    var ws := LoopWaveforms(cfg, svc, engine.cache, ev, cfg.packetIds);
    LoopWaveformAt(cfg, svc, engine.cache, ev, cfg.packetIds, i, k);
    assert LoopWaveform(cfg, svc, engine.cache, ev, cfg.packetIds, i, k) in multiset(ws);
  }

  /** End to end, the other way: every waveform in the container is the
      peak waveform of an accepted row of a present packet. */
  lemma EventWaveformsAreRowPeaks(cfg: Config, svc: Services, engine: Engine, c: Container, ev: Event, w: Waveform)
    requires ev.eventType < FIRST_DISCARDED_EVENT_TYPE
    requires w in ProcessEvent(cfg, svc, engine, c, ev).container.waveforms
    ensures exists i, k :: && IsLoopRow(cfg, ev, cfg.packetIds, i, k)
                           && w == LoopWaveform(cfg, svc, engine.cache, ev, cfg.packetIds, i, k)
                           && IsRowWaveform(cfg, svc, cfg.packetIds[i], LoopRow(cfg, ev, cfg.packetIds, i, k),
                                            LoopClock(cfg, engine.cache, ev, cfg.packetIds, i, k), w)
  {
    var r := ProcessEvent(cfg, svc, engine, c, ev);
    assert w in multiset(r.container.waveforms);
    LoopWaveformsAreRows(cfg, svc, engine.cache, ev, cfg.packetIds, w);
    var i, k :| IsLoopRow(cfg, ev, cfg.packetIds, i, k) && w == LoopWaveform(cfg, svc, engine.cache, ev, cfg.packetIds, i, k);
    RowWaveformIsRowPeak(cfg, svc, cfg.packetIds[i], LoopRow(cfg, ev, cfg.packetIds, i, k),
                         LoopClock(cfg, engine.cache, ev, cfg.packetIds, i, k));
  }
}

=== FILE: ints.dfy ===
/** Fixed-width unsigned integers of the readout data and the C++
    conversions between them.  A conversion of an integer to an unsigned
    n-bit type keeps its value modulo 2^n, which is Dafny's Euclidean `%`. */
module Ints {

  type u8 = x: int | 0 <= x < 0x100
  type u16 = x: int | 0 <= x < 0x1_0000
  type u32 = x: int | 0 <= x < 0x1_0000_0000
  type u64 = x: int | 0 <= x < 0x1_0000_0000_0000_0000

  /** static_cast<uint8_t> */
  function ToU8(x: int): (r: u8)
    ensures 0 <= x < 0x100 ==> r == x
    ensures (x - r) % 0x100 == 0
  {
    x % 0x100
  }

  /** static_cast<uint16_t>, also the implicit narrowing to unsigned short */
  function ToU16(x: int): (r: u16)
    ensures 0 <= x < 0x1_0000 ==> r == x
    ensures (x - r) % 0x1_0000 == 0
  {
    x % 0x1_0000
  }

  /** static_cast<uint32_t> */
  function ToU32(x: int): (r: u32)
    ensures 0 <= x < 0x1_0000_0000 ==> r == x
    ensures (x - r) % 0x1_0000_0000 == 0
  {
    x % 0x1_0000_0000
  }

  /** static_cast<uint64_t> */
  function ToU64(x: int): (r: u64)
    ensures 0 <= x < 0x1_0000_0000_0000_0000 ==> r == x
    ensures (x - r) % 0x1_0000_0000_0000_0000 == 0
  {
    x % 0x1_0000_0000_0000_0000
  }

  /** `x & 0xFFFFF`: the low 20 bits of a 64-bit value */
  function Low20(x: u64): (r: u32)
    ensures r < 0x10_0000
    ensures (x - r) % 0x10_0000 == 0
    ensures x < 0x10_0000 ==> r == x
  {
    x % 0x10_0000
  }

  function Min(a: int, b: int): (m: int)
    ensures m <= a && m <= b
    ensures m == a || m == b
  {
    if a < b then a else b
  }
}

=== FILE: matcher.dfy ===
/** The greedy per-FEE BCO matcher.

    Each FEE has a cached pair (last FEE clock, last LVL1 clock) that
    persists across events and reads as (0, 0) until first written.  Within
    one packet each FEE also has a queue of candidate LVL1 clocks, seeded on
    first use with the packet's full LVL1 list and consumed from the front.
    A FEE clock within `MAX_FEE_BCO_DIFF` of the cached one reuses the
    cached LVL1 clock; otherwise the front of the queue is taken and becomes
    the new anchor; when the queue is empty the sample is an orphan. */
module Matcher {
  import opened Ints
  import opened Bco

  /** The anchor of a FEE: its clock at the last queue pop and the LVL1
      clock that pop assigned. */
  datatype MatchPair = MatchPair(feeBco: u32, lvl1Bco: u64)

  /** Per-FEE anchors; a missing FEE reads as the value-initialised pair. */
  type Cache = map<nat, MatchPair>

  /** Per-FEE candidate queues of the packet being processed; a FEE not yet
      present still has the packet's full LVL1 list ahead of it. */
  type Queues = map<nat, seq<u64>>

  function CacheOf(cache: Cache, fee: nat): MatchPair {
    if fee in cache then cache[fee] else MatchPair(0, 0)
  }

  function QueueOf(queues: Queues, main: seq<u64>, fee: nat): seq<u64> {
    if fee in queues then queues[fee] else main
  }

  /** How one FEE clock was matched. */
  datatype Outcome = Reused(lvl1: u64) | Popped(lvl1: u64) | Orphan

  /** The LVL1 clock a sample carries; an orphan keeps the sentinel 0. */
  function AssignedBco(o: Outcome): (b: u64)
    ensures o.Orphan? ==> b == 0
    ensures !o.Orphan? ==> b == o.lvl1
  {
    match o
    case Reused(v) => v
    case Popped(v) => v
    case Orphan => 0
  }

  datatype Step = Step(outcome: Outcome, cache: Cache, queues: Queues)

  /** Match one (FEE, FEE clock) occurrence. */
  function Match(cache: Cache, queues: Queues, main: seq<u64>, fee: nat, feeBco: u32): (r: Step)
    // within tolerance: the cached LVL1 clock is reused and nothing changes
    ensures BcoDiff(feeBco, CacheOf(cache, fee).feeBco) < MAX_FEE_BCO_DIFF ==>
              r == Step(Reused(CacheOf(cache, fee).lvl1Bco), cache, queues)
    // out of tolerance with a candidate: the front is consumed and becomes the anchor
    ensures BcoDiff(feeBco, CacheOf(cache, fee).feeBco) >= MAX_FEE_BCO_DIFF
            && |QueueOf(queues, main, fee)| > 0 ==>
              && r.outcome == Popped(QueueOf(queues, main, fee)[0])
              && CacheOf(r.cache, fee) == MatchPair(feeBco, QueueOf(queues, main, fee)[0])
              && QueueOf(r.queues, main, fee) == QueueOf(queues, main, fee)[1..]
    // out of tolerance, no candidate left: an orphan, the anchor is kept
    ensures BcoDiff(feeBco, CacheOf(cache, fee).feeBco) >= MAX_FEE_BCO_DIFF
            && |QueueOf(queues, main, fee)| == 0 ==>
              && r.outcome == Orphan
              && r.cache == cache
              && QueueOf(r.queues, main, fee) == []
    // other FEEs are untouched
    ensures forall f :: f != fee ==>
              CacheOf(r.cache, f) == CacheOf(cache, f) && QueueOf(r.queues, main, f) == QueueOf(queues, main, f)
  {
    var anchor := CacheOf(cache, fee);
    if BcoDiff(feeBco, anchor.feeBco) < MAX_FEE_BCO_DIFF then
      Step(Reused(anchor.lvl1Bco), cache, queues)
    else
      var q := QueueOf(queues, main, fee);
      if |q| > 0 then
        Step(Popped(q[0]), cache[fee := MatchPair(feeBco, q[0])], queues[fee := q[1..]])
      else
        Step(Orphan, cache, queues[fee := q])
  }

  /** A FEE's queue never grows, and shrinks by one exactly on a pop. */
  lemma QueueShrinksOnlyOnPop(cache: Cache, queues: Queues, main: seq<u64>, fee: nat, feeBco: u32)
    ensures var r := Match(cache, queues, main, fee, feeBco);
            |QueueOf(r.queues, main, fee)| + (if r.outcome.Popped? then 1 else 0)
              == |QueueOf(queues, main, fee)|
  {
  }

  /** One match takes at most the front of FEE `f`'s queue, and only
      when it is a pop for `f`. */
  lemma MatchConsumesFront(cache: Cache, queues: Queues, main: seq<u64>, fee: nat, feeBco: u32, f: nat)
    ensures var s := Match(cache, queues, main, fee, feeBco);
            (if fee == f && s.outcome.Popped? then [s.outcome.lvl1] else []) + QueueOf(s.queues, main, f)
              == QueueOf(queues, main, f)
  {
  }

  /** The result of matching a sequence of occurrences in order. */
  datatype RunResult = RunResult(outcomes: seq<Outcome>, cache: Cache, queues: Queues)

  function Run(cache: Cache, queues: Queues, main: seq<u64>, inputs: seq<(nat, u32)>): (r: RunResult)
    ensures |r.outcomes| == |inputs|
    decreases |inputs|
  {
    if |inputs| == 0 then RunResult([], cache, queues)
    else
      var s := Match(cache, queues, main, inputs[0].0, inputs[0].1);
      var rest := Run(s.cache, s.queues, main, inputs[1..]);
      RunResult([s.outcome] + rest.outcomes, rest.cache, rest.queues)
  }

  /** Running a non-empty sequence is one match followed by the rest. */
  lemma RunCons(cache: Cache, queues: Queues, main: seq<u64>, x: (nat, u32), rest: seq<(nat, u32)>)
    ensures var s := Match(cache, queues, main, x.0, x.1);
            var r := Run(cache, queues, main, [x] + rest);
            var r' := Run(s.cache, s.queues, main, rest);
            r.cache == r'.cache && r.queues == r'.queues && r.outcomes == [s.outcome] + r'.outcomes
  {
    assert ([x] + rest)[0] == x;
    assert ([x] + rest)[1..] == rest;
  }

  /** The LVL1 clocks popped for FEE `f`, in order. */
  function PoppedFor(f: nat, inputs: seq<(nat, u32)>, outcomes: seq<Outcome>): seq<u64>
    requires |inputs| == |outcomes|
    decreases |inputs|
  {
    if |inputs| == 0 then []
    else (if inputs[0].0 == f && outcomes[0].Popped? then [outcomes[0].lvl1] else [])
         + PoppedFor(f, inputs[1..], outcomes[1..])
  }

  /** The outcomes of the occurrences of FEE `f`, in order. */
  function OutcomesFor(f: nat, inputs: seq<(nat, u32)>, outcomes: seq<Outcome>): seq<Outcome>
    requires |inputs| == |outcomes|
    decreases |inputs|
  {
    if |inputs| == 0 then []
    else (if inputs[0].0 == f then [outcomes[0]] else [])
         + OutcomesFor(f, inputs[1..], outcomes[1..])
  }

  /** The occurrences of FEE `f`, in order. */
  function OnlyFee(f: nat, inputs: seq<(nat, u32)>): (r: seq<(nat, u32)>)
    ensures forall i :: 0 <= i < |r| ==> r[i].0 == f
    decreases |inputs|
  {
    if |inputs| == 0 then []
    else (if inputs[0].0 == f then [inputs[0]] else []) + OnlyFee(f, inputs[1..])
  }

  /** Queue consumption is in order: what a FEE popped, followed by what is
      left in its queue, is exactly the queue it started with. */
  lemma {:induction false} ConsumedThenRemaining(cache: Cache, queues: Queues, main: seq<u64>,
                                                 inputs: seq<(nat, u32)>, f: nat)
    ensures var r := Run(cache, queues, main, inputs);
            PoppedFor(f, inputs, r.outcomes) + QueueOf(r.queues, main, f) == QueueOf(queues, main, f)
    decreases |inputs|
  {
    if |inputs| > 0 {
      var s := Match(cache, queues, main, inputs[0].0, inputs[0].1);
      var rest := Run(s.cache, s.queues, main, inputs[1..]);
      var r := Run(cache, queues, main, inputs);
      assert r.outcomes[0] == s.outcome && r.outcomes[1..] == rest.outcomes;
      assert r.queues == rest.queues;
      var h: seq<u64> := if inputs[0].0 == f && s.outcome.Popped? then [s.outcome.lvl1] else [];
      assert PoppedFor(f, inputs, r.outcomes) == h + PoppedFor(f, inputs[1..], rest.outcomes);
      ConsumedThenRemaining(s.cache, s.queues, main, inputs[1..], f);
      MatchConsumesFront(cache, queues, main, inputs[0].0, inputs[0].1, f);
      assert (h + PoppedFor(f, inputs[1..], rest.outcomes)) + QueueOf(rest.queues, main, f)
          == h + (PoppedFor(f, inputs[1..], rest.outcomes) + QueueOf(rest.queues, main, f));
    }
  }

  /** Over one packet (queues start empty) the LVL1 clocks each FEE consumes
      form an in-order prefix of the packet's LVL1 list. */
  lemma PacketConsumesPrefix(cache: Cache, main: seq<u64>, inputs: seq<(nat, u32)>, f: nat)
    ensures var r := Run(cache, map[], main, inputs);
            var p := PoppedFor(f, inputs, r.outcomes);
            |p| <= |main| && p == main[..|p|]
            && QueueOf(r.queues, main, f) == main[|p|..]
  {
    ConsumedThenRemaining(cache, map[], main, inputs, f);
  }

  /** Two matcher states that agree on FEE `f` give the same outcome for an
      occurrence of `f` and still agree on `f` afterwards. */
  lemma MatchIsLocal(c1: Cache, q1: Queues, c2: Cache, q2: Queues, main: seq<u64>, f: nat, b: u32)
    requires CacheOf(c1, f) == CacheOf(c2, f) && QueueOf(q1, main, f) == QueueOf(q2, main, f)
    ensures var r1 := Match(c1, q1, main, f, b);
            var r2 := Match(c2, q2, main, f, b);
            r1.outcome == r2.outcome
            && CacheOf(r1.cache, f) == CacheOf(r2.cache, f)
            && QueueOf(r1.queues, main, f) == QueueOf(r2.queues, main, f)
  {
  }

  /** FEEs are matched independently: the outcomes of FEE `f`'s occurrences
      do not depend on how they are interleaved with other FEEs'
      occurrences, only on their own order. */
  lemma {:induction false} InterleavingIndependent(c1: Cache, q1: Queues, c2: Cache, q2: Queues,
                                                   main: seq<u64>, inputs: seq<(nat, u32)>, f: nat)
    requires CacheOf(c1, f) == CacheOf(c2, f) && QueueOf(q1, main, f) == QueueOf(q2, main, f)
    ensures var r1 := Run(c1, q1, main, inputs);
            var r2 := Run(c2, q2, main, OnlyFee(f, inputs));
            OutcomesFor(f, inputs, r1.outcomes) == r2.outcomes
            && CacheOf(r1.cache, f) == CacheOf(r2.cache, f)
            && QueueOf(r1.queues, main, f) == QueueOf(r2.queues, main, f)
    decreases |inputs|
  {
    if |inputs| > 0 {
      var s1 := Match(c1, q1, main, inputs[0].0, inputs[0].1);
      var r1 := Run(c1, q1, main, inputs);
      assert r1.outcomes[0] == s1.outcome;
      assert r1.outcomes[1..] == Run(s1.cache, s1.queues, main, inputs[1..]).outcomes;
      if inputs[0].0 == f {
        var s2 := Match(c2, q2, main, f, inputs[0].1);
        MatchIsLocal(c1, q1, c2, q2, main, f, inputs[0].1);
        assert OnlyFee(f, inputs) == [inputs[0]] + OnlyFee(f, inputs[1..]);
        var only := OnlyFee(f, inputs);
        assert only[0] == inputs[0] && only[1..] == OnlyFee(f, inputs[1..]);
        InterleavingIndependent(s1.cache, s1.queues, s2.cache, s2.queues, main, inputs[1..], f);
      } else {
        assert OnlyFee(f, inputs) == OnlyFee(f, inputs[1..]);
        InterleavingIndependent(s1.cache, s1.queues, c2, q2, main, inputs[1..], f);
      }
    }
  }

  /** One FEE, candidates [1000, 2000, 3000], FEE clocks 55, 56, 57, 200,
      201: the first three share 1000, the last two share 2000, and 3000 is
      left in the queue. */
  lemma CorrelationScenario()
    ensures var r := Run(map[], map[], [1000, 2000, 3000], [(3, 55), (3, 56), (3, 57), (3, 200), (3, 201)]);
            r.outcomes == [Popped(1000), Reused(1000), Reused(1000), Popped(2000), Reused(2000)]
            && QueueOf(r.queues, [1000, 2000, 3000], 3) == [3000]
  {
    var main: seq<u64> := [1000, 2000, 3000];
    var s1 := Match(map[], map[], main, 3, 55);
    assert s1.outcome == Popped(1000);
    var s2 := Match(s1.cache, s1.queues, main, 3, 56);
    assert s2.outcome == Reused(1000);
    var s3 := Match(s2.cache, s2.queues, main, 3, 57);
    assert s3.outcome == Reused(1000);
    var s4 := Match(s3.cache, s3.queues, main, 3, 200);
    assert s4.outcome == Popped(2000);
    var s5 := Match(s4.cache, s4.queues, main, 3, 201);
    assert s5.outcome == Reused(2000);
    assert QueueOf(s5.queues, main, 3) == [3000];
  }

  /** With no candidates a FEE clock far from the anchor is an orphan and
      the anchor is left as it was. */
  lemma ExhaustionScenario(cache: Cache)
    requires CacheOf(cache, 3) == MatchPair(0, 0)
    ensures var r := Match(cache, map[], [], 3, 55);
            r.outcome == Orphan && AssignedBco(r.outcome) == 0 && r.cache == cache
  {
  }
}

=== FILE: multimap.dfy ===
/** A `std::multimap` keyed by an integer, as the sequence of its entries
    in iteration order.  `emplace` puts a new entry after every entry with
    the same key, so iteration is by key and, among equal keys, by
    insertion order. */
module Multimap {

  /** Entries are in non-decreasing key order. */
  predicate Sorted<T>(s: seq<T>, key: T -> int) {
    forall i, j :: 0 <= i < j < |s| ==> key(s[i]) <= key(s[j])
  }

  /** The entries with key `k`, in order. */
  function Filter<T>(s: seq<T>, key: T -> int, k: int): (r: seq<T>)
    ensures |r| <= |s|
    decreases |s|
  {
    if |s| == 0 then []
    else (if key(s[0]) == k then [s[0]] else []) + Filter(s[1..], key, k)
  }

  /** `emplace`: insert before the first entry with a greater key. */
  function Insert<T>(m: seq<T>, key: T -> int, x: T): (r: seq<T>)
    ensures |r| == |m| + 1
    decreases |m|
  {
    if |m| == 0 then [x]
    else if key(x) < key(m[0]) then [x] + m
    else [m[0]] + Insert(m[1..], key, x)
  }

  /** Emplacing every value of `xs` in order. */
  function InsertAll<T>(m: seq<T>, key: T -> int, xs: seq<T>): (r: seq<T>)
    ensures |r| == |m| + |xs|
    decreases |xs|
  {
    if |xs| == 0 then m
    else InsertAll(Insert(m, key, xs[0]), key, xs[1..])
  }

  /** Emplacing adds exactly the new entry. */
  lemma {:induction false} InsertPermutes<T>(m: seq<T>, key: T -> int, x: T)
    ensures multiset(Insert(m, key, x)) == multiset(m) + multiset{x}
    decreases |m|
  {
    if |m| > 0 && key(x) >= key(m[0]) {
      InsertPermutes(m[1..], key, x);
      assert m == [m[0]] + m[1..];
    }
  }

  /** Emplacing keeps the entries in key order. */
  lemma {:induction false} InsertSorted<T>(m: seq<T>, key: T -> int, x: T)
    requires Sorted(m, key)
    ensures Sorted(Insert(m, key, x), key)
    decreases |m|
  {
    if |m| > 0 && key(x) >= key(m[0]) {
      var rest := Insert(m[1..], key, x);
      InsertSorted(m[1..], key, x);
      InsertPermutes(m[1..], key, x);
      forall j | 0 <= j < |rest| ensures key(m[0]) <= key(rest[j]) {
        assert rest[j] in multiset(rest);
        if rest[j] != x {
          assert rest[j] in multiset(m[1..]);
          var i :| 0 <= i < |m[1..]| && m[1..][i] == rest[j];
          assert m[i + 1] == rest[j];
        }
      }
    }
  }

  /** Emplacing a sequence adds exactly its entries. */
  lemma {:induction false} InsertAllPermutes<T>(m: seq<T>, key: T -> int, xs: seq<T>)
    ensures multiset(InsertAll(m, key, xs)) == multiset(m) + multiset(xs)
    decreases |xs|
  {
    if |xs| > 0 {
      InsertPermutes(m, key, xs[0]);
      InsertAllPermutes(Insert(m, key, xs[0]), key, xs[1..]);
      assert xs == [xs[0]] + xs[1..];
    }
  }

  /** Emplacing a sequence keeps the entries in key order. */
  lemma {:induction false} InsertAllSorted<T>(m: seq<T>, key: T -> int, xs: seq<T>)
    requires Sorted(m, key)
    ensures Sorted(InsertAll(m, key, xs), key)
    decreases |xs|
  {
    if |xs| > 0 {
      InsertSorted(m, key, xs[0]);
      InsertAllSorted(Insert(m, key, xs[0]), key, xs[1..]);
    }
  }

  lemma {:induction false} FilterAppend<T>(a: seq<T>, b: seq<T>, key: T -> int, k: int)
    ensures Filter(a + b, key, k) == Filter(a, key, k) + Filter(b, key, k)
    decreases |a|
  {
    if |a| == 0 {
      assert a + b == b;
    } else {
      var h: seq<T> := if key(a[0]) == k then [a[0]] else [];
      assert (a + b)[0] == a[0];
      assert (a + b)[1..] == a[1..] + b;
      assert Filter(a + b, key, k) == h + Filter(a[1..] + b, key, k);
      FilterAppend(a[1..], b, key, k);
      assert Filter(a, key, k) == h + Filter(a[1..], key, k);
      assert h + (Filter(a[1..], key, k) + Filter(b, key, k))
          == (h + Filter(a[1..], key, k)) + Filter(b, key, k);
    }
  }

  /** A sorted sequence whose first key is above `k` has no entry with key `k`. */
  lemma {:induction false} FilterBelowFirst<T>(m: seq<T>, key: T -> int, k: int)
    requires Sorted(m, key) && |m| > 0 && k < key(m[0])
    ensures Filter(m, key, k) == []
    decreases |m|
  {
    if |m| > 1 {
      FilterBelowFirst(m[1..], key, k);
    }
  }

  /** Emplacing into a sorted multimap appends the new entry at the end of
      the entries with its key and leaves other keys' entries as they were. */
  lemma {:induction false} InsertFilter<T>(m: seq<T>, key: T -> int, x: T, k: int)
    requires Sorted(m, key)
    ensures Filter(Insert(m, key, x), key, k)
            == Filter(m, key, k) + (if key(x) == k then [x] else [])
    decreases |m|
  {
    if |m| == 0 {
    } else if key(x) < key(m[0]) {
      FilterAppend([x], m, key, k);
      if key(x) == k {
        FilterBelowFirst(m, key, k);
      }
    } else {
      SortedTail(m, key);
      InsertFilter(m[1..], key, x, k);
      InsertFilterStep(m, key, x, k, if key(x) == k then [x] else []);
    }
  }

  /** Dropping the first entry keeps the entries in key order. */
  lemma SortedTail<T>(m: seq<T>, key: T -> int)
    requires Sorted(m, key) && |m| > 0
    ensures Sorted(m[1..], key)
  {
    forall i, j | 0 <= i < j < |m[1..]| ensures key(m[1..][i]) <= key(m[1..][j]) {
      assert m[1..][i] == m[i + 1] && m[1..][j] == m[j + 1];
    }
  }

  /** Emplacing past the first entry: what emplacing into the rest appends
      to the rest's entries with key `k` it appends to the whole's. */
  lemma InsertFilterStep<T>(m: seq<T>, key: T -> int, x: T, k: int, t: seq<T>)
    requires |m| > 0 && key(x) >= key(m[0])
    requires Filter(Insert(m[1..], key, x), key, k) == Filter(m[1..], key, k) + t
    ensures Filter(Insert(m, key, x), key, k) == Filter(m, key, k) + t
  {
    var rest := Insert(m[1..], key, x);
    var h: seq<T> := if key(m[0]) == k then [m[0]] else [];
    assert Filter([m[0]], key, k) == h by {
      assert [m[0]][1..] == [];
    }
    calc {
      Filter(Insert(m, key, x), key, k);
      Filter([m[0]] + rest, key, k);
      { FilterAppend([m[0]], rest, key, k); }
      h + Filter(rest, key, k);
      h + (Filter(m[1..], key, k) + t);
      (h + Filter(m[1..], key, k)) + t;
      { FilterAppend([m[0]], m[1..], key, k); assert [m[0]] + m[1..] == m; }
      Filter(m, key, k) + t;
    }
  }

  /** Emplacing a sequence into a sorted multimap appends, for every key,
      the new entries with that key in their insertion order. */
  lemma {:induction false} InsertAllFilter<T>(m: seq<T>, key: T -> int, xs: seq<T>, k: int)
    requires Sorted(m, key)
    ensures Filter(InsertAll(m, key, xs), key, k) == Filter(m, key, k) + Filter(xs, key, k)
    decreases |xs|
  {
    if |xs| == 0 {
      assert Filter(m, key, k) + [] == Filter(m, key, k);
    } else {
      var m' := Insert(m, key, xs[0]);
      var h: seq<T> := if key(xs[0]) == k then [xs[0]] else [];
      InsertSorted(m, key, xs[0]);
      calc {
        Filter(InsertAll(m, key, xs), key, k);
        Filter(InsertAll(m', key, xs[1..]), key, k);
        { InsertAllFilter(m', key, xs[1..], k); }
        Filter(m', key, k) + Filter(xs[1..], key, k);
        { InsertFilter(m, key, xs[0], k); }
        (Filter(m, key, k) + h) + Filter(xs[1..], key, k);
        Filter(m, key, k) + (h + Filter(xs[1..], key, k));
        { FilterCons(xs, key, k); }
        Filter(m, key, k) + Filter(xs, key, k);
      }
    }
  }

  lemma FilterCons<T>(xs: seq<T>, key: T -> int, k: int)
    requires |xs| > 0
    ensures Filter(xs, key, k) == (if key(xs[0]) == k then [xs[0]] else []) + Filter(xs[1..], key, k)
  {
  }

  /** Emplacing a sequence into an empty multimap sorts it stably: the
      result is in key order, each key's entries keep their insertion
      order, and nothing is lost or added. */
  lemma StableSortByInsertion<T>(key: T -> int, xs: seq<T>)
    ensures var m := InsertAll([], key, xs);
            && Sorted(m, key)
            && (forall k :: Filter(m, key, k) == Filter(xs, key, k))
            && multiset(m) == multiset(xs)
  {
    var m := InsertAll([], key, xs);
    InsertAllSorted([], key, xs);
    InsertAllPermutes([], key, xs);
    forall k ensures Filter(m, key, k) == Filter(xs, key, k) {
      InsertAllFilter([], key, xs, k);
    }
  }

  /** Every entry of a filter has the filtered key and occurs in the source. */
  lemma {:induction false} FilterMembers<T>(s: seq<T>, key: T -> int, k: int, x: T)
    requires x in Filter(s, key, k)
    ensures x in s && key(x) == k
    decreases |s|
  {
    if key(s[0]) == k && x == s[0] {
    } else {
      FilterMembers(s[1..], key, k, x);
    }
  }

  /** An entry with key `k` shows up in the filter for `k`. */
  lemma {:induction false} FilterNonEmpty<T>(s: seq<T>, key: T -> int, i: int)
    requires 0 <= i < |s|
    ensures |Filter(s, key, key(s[i]))| > 0
    decreases |s|
  {
    if i > 0 && key(s[0]) != key(s[i]) {
      FilterNonEmpty(s[1..], key, i - 1);
    }
  }

  /** Sortedness plus per-key order pins a sequence down: two sorted
      sequences with the same entries per key, in the same order, are equal.
      So the multimap's contents are exactly the stable sort of what was
      inserted. */
  lemma {:induction false} SortedFiltersDetermine<T>(a: seq<T>, b: seq<T>, key: T -> int)
    requires Sorted(a, key) && Sorted(b, key)
    requires forall k :: Filter(a, key, k) == Filter(b, key, k)
    ensures a == b
    decreases |a|
  {
    if |a| == 0 {
      if |b| > 0 {
        FilterNonEmpty(b, key, 0);
        assert false;
      }
    } else {
      FilterNonEmpty(a, key, 0);
      var ka := key(a[0]);
      assert |Filter(b, key, ka)| > 0;
      assert |b| > 0;
      var kb := key(b[0]);
      FilterNonEmpty(b, key, 0);
      assert |Filter(a, key, kb)| > 0;
      FilterMembers(a, key, kb, Filter(a, key, kb)[0]);
      FilterMembers(b, key, ka, Filter(b, key, ka)[0]);
      assert ka <= kb && kb <= ka;
      assert Filter(a, key, ka)[0] == a[0];
      assert Filter(b, key, ka)[0] == b[0];
      forall k ensures Filter(a[1..], key, k) == Filter(b[1..], key, k) {
        var ha: seq<T> := if ka == k then [a[0]] else [];
        assert Filter(a, key, k) == ha + Filter(a[1..], key, k);
        assert Filter(b, key, k) == ha + Filter(b[1..], key, k);
        assert (ha + Filter(a[1..], key, k))[|ha|..] == Filter(a[1..], key, k);
        assert (ha + Filter(b[1..], key, k))[|ha|..] == Filter(b[1..], key, k);
      }
      SortedFiltersDetermine(a[1..], b[1..], key);
      assert a == [a[0]] + a[1..] && b == [b[0]] + b[1..];
    }
  }
}

=== FILE: orphans.dfy ===
/** The per-packet orphan set: (FEE, FEE clock) pairs already reported as
    having no LVL1 candidate, so that each is reported once. */
module Orphans {
  import opened Ints

  type OrphanSet = set<(nat, u32)>

  /** `std::set::insert`: the set after the insertion and whether the pair
      was new. */
  datatype Inserted = Inserted(orphans: OrphanSet, isNew: bool)

  function Insert(orphans: OrphanSet, fee: nat, feeBco: u32): (r: Inserted)
    ensures r.isNew <==> (fee, feeBco) !in orphans
    ensures (fee, feeBco) in r.orphans
    ensures r.orphans - {(fee, feeBco)} == orphans - {(fee, feeBco)}
  {
    Inserted(orphans + {(fee, feeBco)}, (fee, feeBco) !in orphans)
  }

  /** Inserting the same pair twice reports it new the first time only, and
      the second insertion leaves the set unchanged. */
  lemma ReportedOnce(orphans: OrphanSet, fee: nat, feeBco: u32)
    requires (fee, feeBco) !in orphans
    ensures var first := Insert(orphans, fee, feeBco);
            var second := Insert(first.orphans, fee, feeBco);
            first.isNew && !second.isNew && second.orphans == first.orphans
  {
  }
}

=== FILE: peak.dfy ===
/** The waveform scan: the ADC values of a channel are visited in index
    order, sentinel values are skipped, every other value becomes a sample,
    and the sample with the strictly greatest ADC (first one on ties) is the
    peak.  The running peak starts as a default sample with ADC 0, so a
    waveform whose valid values are all 0 has no peak. */
module Peak {
  import opened Ints
  import opened Wrappers
  import opened Records

  /** At most this many ADC values of a waveform are scanned. */
  const MAX_SAMPLES: nat := 1024

  /** Index of the peak among the first `n` values, if any valid value
      exceeds 0. */
  function PeakIndex(adcs: seq<u16>, invalid: u16, n: nat): (p: Option<nat>)
    requires n <= |adcs|
    ensures p.Some? ==>
              && p.value < n
              && adcs[p.value] != invalid
              && adcs[p.value] > 0
              && (forall j :: 0 <= j < n && adcs[j] != invalid ==> adcs[j] <= adcs[p.value])
              && (forall j :: 0 <= j < p.value && adcs[j] != invalid ==> adcs[j] < adcs[p.value])
    ensures p.None? ==> forall j :: 0 <= j < n && adcs[j] != invalid ==> adcs[j] == 0
    decreases n
  {
    if n == 0 then None
    else
      var p := PeakIndex(adcs, invalid, n - 1);
      var best := if p.Some? then adcs[p.value] else 0;
      if adcs[n - 1] != invalid && adcs[n - 1] > best then Some(n - 1) else p
  }

  /** The peak is determined by its contract: an index that is valid, at
      least every valid value, and strictly above every earlier valid value
      is the one the scan returns. */
  lemma PeakIndexUnique(adcs: seq<u16>, invalid: u16, i: nat)
    requires i < |adcs| && adcs[i] != invalid && adcs[i] > 0
    requires forall j :: 0 <= j < |adcs| && adcs[j] != invalid ==> adcs[j] <= adcs[i]
    requires forall j :: 0 <= j < i && adcs[j] != invalid ==> adcs[j] < adcs[i]
    ensures PeakIndex(adcs, invalid, |adcs|) == Some(i)
  {
  }

  /** The running peak sample after the scan: the template sample stamped
      with the peak's index and ADC, or the default sample. */
  function PeakSampleOf(base: Sample, adcs: seq<u16>, invalid: u16): (s: Sample)
    requires |adcs| <= MAX_SAMPLES
    ensures s == DefaultSample || (s.sample < |adcs| && s.adc == adcs[s.sample] && s.adc != invalid)
    ensures s != DefaultSample ==> s == base.(sample := s.sample, adc := s.adc)
    ensures forall j :: 0 <= j < |adcs| && adcs[j] != invalid ==> adcs[j] <= s.adc
    // the first occurrence wins on ties
    ensures s != DefaultSample ==>
              s.adc > 0 && forall j :: 0 <= j < s.sample && adcs[j] != invalid ==> adcs[j] < s.adc
    // the default survives exactly when no valid value rises above 0
    ensures s == DefaultSample <==> forall j :: 0 <= j < |adcs| && adcs[j] != invalid ==> adcs[j] == 0
  {
    match PeakIndex(adcs, invalid, |adcs|)
    case None => DefaultSample
    case Some(i) => base.(sample := i, adc := adcs[i])
  }

  /** The samples emitted while scanning the first `n` values: one per
      valid value, in index order, each the template stamped with its index
      and ADC. */
  function ValidSamples(base: Sample, adcs: seq<u16>, invalid: u16, n: nat): (r: seq<Sample>)
    requires n <= |adcs| <= MAX_SAMPLES
    ensures forall k :: 0 <= k < |r| ==>
              && r[k].sample < n
              && adcs[r[k].sample] != invalid
              && r[k] == base.(sample := r[k].sample, adc := adcs[r[k].sample])
    ensures forall k, l :: 0 <= k < l < |r| ==> r[k].sample < r[l].sample
    ensures forall j :: 0 <= j < n && adcs[j] != invalid ==> base.(sample := j, adc := adcs[j]) in r
    decreases n
  {
    if n == 0 then []
    else
      var prev := ValidSamples(base, adcs, invalid, n - 1);
      if adcs[n - 1] != invalid then prev + [base.(sample := n - 1, adc := adcs[n - 1])] else prev
  }

  /** ADC values [5, 10, 7, 10]: the peak is the first 10, at index 1. */
  lemma TieBreakScenario()
    ensures PeakIndex([5, 10, 7, 10], 0xFFFF, 4) == Some(1)
  {
    PeakIndexUnique([5, 10, 7, 10], 0xFFFF, 1);
  }
}

=== FILE: records.dfy ===
/** The records an evaluation event carries out: tagger rows, per-ADC
    samples, per-channel waveforms (the peak sample of one waveform scan),
    and the container that holds one event's worth of them. */
module Records {
  import opened Ints

  /** One row of a packet's tagger table, after the narrowing casts. */
  datatype TaggerInfo = TaggerInfo(
    packetId: int,
    taggerType: u16,
    isLvl1: u8,
    isEndat: u8,
    bco: u64,
    lastBco: u64,
    lvl1Count: u32,
    endatCount: u32)

  /** One ADC sample of one channel, tagged with the FEE clock and the
      matched LVL1 clock.  `lvl1BcoMasked` keeps the low 20 bits of
      `lvl1Bco`. */
  datatype Sample = Sample(
    packetId: int,
    feeId: nat,
    layer: int,
    tile: int,
    channel: nat,
    strip: int,
    sampaAddress: int,
    sampaChannel: int,
    feeBco: u32,
    lvl1Bco: u64,
    lvl1BcoMasked: u32,
    checksum: int,
    checksumError: bool,
    sample: u16,
    adc: u16,
    pedestal: real,
    rms: real)

  /** A default-constructed sample: every field zero. */
  const DefaultSample: Sample :=
    Sample(0, 0, 0, 0, 0, 0, 0, 0, 0, 0, 0, 0, false, 0, 0, 0.0, 0.0)

  /** The peak of one waveform scan plus its signal/noise classification. */
  datatype Waveform = Waveform(
    packetId: int,
    lvl1Bco: u64,
    feeBco: u32,
    checksum: int,
    checksumError: bool,
    feeId: nat,
    layer: int,
    tile: int,
    sampaAddress: int,
    sampaChannel: int,
    channel: nat,
    strip: int,
    sampleMax: u16,
    adcMax: u16,
    pedestal: real,
    rms: real,
    isSignal: bool)

  /** The masked LVL1 clock of a sample agrees with its full value. */
  predicate MaskConsistent(s: Sample) {
    s.lvl1BcoMasked == Low20(s.lvl1Bco)
  }

  /** `Waveform::copy_from`: project a sample onto a waveform, the sample
      index becoming `sampleMax` and the ADC becoming `adcMax`.  `copy_from`
      does not touch `is_signal`; the model takes the member's default in the
      class declaration (not part of this model) to be false, and the caller
      sets the classification afterwards. */
  function CopyFrom(s: Sample): (w: Waveform)
    ensures w.sampleMax == s.sample && w.adcMax == s.adc
    ensures w.lvl1Bco == s.lvl1Bco && w.feeBco == s.feeBco
    ensures !w.isSignal
  {
    Waveform(s.packetId, s.lvl1Bco, s.feeBco, s.checksum, s.checksumError,
             s.feeId, s.layer, s.tile, s.sampaAddress, s.sampaChannel,
             s.channel, s.strip, s.sample, s.adc, s.pedestal, s.rms, false)
  }

  /** The sample a waveform was projected from, with the masked clock
      recomputed from the full one (the waveform does not carry it). */
  function PeakSample(w: Waveform): Sample {
    Sample(w.packetId, w.feeId, w.layer, w.tile, w.channel, w.strip,
           w.sampaAddress, w.sampaChannel, w.feeBco, w.lvl1Bco, Low20(w.lvl1Bco),
           w.checksum, w.checksumError, w.sampleMax, w.adcMax, w.pedestal, w.rms)
  }

  /** `CopyFrom` loses nothing but the masked clock: for a sample whose
      masked clock is consistent, the projection can be undone. */
  lemma CopyFromRoundTrip(s: Sample)
    requires MaskConsistent(s)
    ensures PeakSample(CopyFrom(s)) == s
  {
  }

  /** The records of one event. */
  datatype Container = Container(
    samples: seq<Sample>,
    waveforms: seq<Waveform>,
    taggers: seq<TaggerInfo>)

  /** `Container::Reset`: all three record sequences become empty,
      whatever the container held before. */
  function Reset(c: Container): (r: Container)
    ensures r.samples == [] && r.waveforms == [] && r.taggers == []
  {
    Container([], [], [])
  }

  /** Resetting forgets the previous contents entirely. */
  lemma ResetForgets(c1: Container, c2: Container)
    ensures Reset(c1) == Reset(c2)
    ensures Reset(Reset(c1)) == Reset(c1)
  {
  }
}

=== FILE: taggers.dfy ===
/** Tagger collection: each packet's tagger table is read row by row; every
    row may be recorded for diagnostics, and the BCO of every LVL1 row is
    collected, in table order, as the packet's candidate LVL1 list. */
module Taggers {
  import opened Ints
  import opened Records

  /** The raw decoder columns of one tagger-table row. */
  datatype TaggerRow = TaggerRow(
    taggerType: int,
    isLevel1: int,
    isEndat: int,
    bco: int,
    lastBco: int,
    level1Count: int,
    endatCount: int)

  /** Build the tagger record of one row, applying the narrowing casts.
      Every column is cast, so an out-of-range decoder value wraps: a
      negative BCO column becomes 2^64 plus that value, and that is the
      candidate LVL1 clock the row contributes. */
  function MakeTagger(packetId: int, row: TaggerRow): (t: TaggerInfo)
    ensures t.packetId == packetId
    ensures t.taggerType == ToU16(row.taggerType)
    ensures t.isLvl1 == ToU8(row.isLevel1) && t.isEndat == ToU8(row.isEndat)
    ensures t.bco == ToU64(row.bco) && t.lastBco == ToU64(row.lastBco)
    ensures t.lvl1Count == ToU32(row.level1Count) && t.endatCount == ToU32(row.endatCount)
    // in-range columns are kept as they are
    ensures 0 <= row.bco < 0x1_0000_0000_0000_0000 ==> t.bco == row.bco
    ensures 0 <= row.isLevel1 < 0x100 ==> t.isLvl1 == row.isLevel1
  {
    TaggerInfo(packetId, ToU16(row.taggerType), ToU8(row.isLevel1), ToU8(row.isEndat),
               ToU64(row.bco), ToU64(row.lastBco), ToU32(row.level1Count), ToU32(row.endatCount))
  }

  /** The tagger records of a table, in table order. */
  function TaggerRecords(packetId: int, rows: seq<TaggerRow>): (ts: seq<TaggerInfo>)
    ensures |ts| == |rows|
  {
    seq(|rows|, i requires 0 <= i < |rows| => MakeTagger(packetId, rows[i]))
  }

  /** The LVL1 records of a sequence of taggers, in order (reference
      definition, scanning from the front). */
  function Lvl1Only(ts: seq<TaggerInfo>): (r: seq<TaggerInfo>)
    ensures |r| <= |ts|
  {
    if |ts| == 0 then []
    else (if ts[0].isLvl1 != 0 then [ts[0]] else []) + Lvl1Only(ts[1..])
  }

  /** The BCO values of a sequence of taggers. */
  function Bcos(ts: seq<TaggerInfo>): (bs: seq<u64>)
    ensures |bs| == |ts|
    ensures forall i :: 0 <= i < |ts| ==> bs[i] == ts[i].bco
  {
    seq(|ts|, i requires 0 <= i < |ts| => ts[i].bco)
  }

  /** What the tagger loop of one packet produces. */
  datatype Collected = Collected(taggers: seq<TaggerInfo>, lvl1Bcos: seq<u64>)

  /** The tagger loop over the first |rows| rows: every row is appended to
      the diagnostic list when `evalTagger` is set, and its BCO is appended
      to the LVL1 list when the row is a LVL1 tagger and sample or waveform
      evaluation (`evalMatching`) is on. */
  function Collect(packetId: int, rows: seq<TaggerRow>, evalTagger: bool, evalMatching: bool): (c: Collected)
    ensures evalTagger ==> c.taggers == TaggerRecords(packetId, rows)
    ensures !evalTagger ==> c.taggers == []
    ensures evalMatching ==> c.lvl1Bcos == Bcos(Lvl1Only(TaggerRecords(packetId, rows)))
    ensures !evalMatching ==> c.lvl1Bcos == []
    decreases |rows|
  {
    if |rows| == 0 then Collected([], [])
    else
      var n := |rows| - 1;
      var prev := Collect(packetId, rows[..n], evalTagger, evalMatching);
      var t := MakeTagger(packetId, rows[n]);
      TaggerRecordsSnoc(packetId, rows);
      Lvl1BcosSnoc(packetId, rows);
      Collected(
        if evalTagger then prev.taggers + [t] else prev.taggers,
        if t.isLvl1 != 0 && evalMatching then prev.lvl1Bcos + [t.bco] else prev.lvl1Bcos)
  }

  lemma BcosAppend(a: seq<TaggerInfo>, b: seq<TaggerInfo>)
    ensures Bcos(a + b) == Bcos(a) + Bcos(b)
  {
  }

  lemma TaggerRecordsSnoc(packetId: int, rows: seq<TaggerRow>)
    requires |rows| > 0
    ensures TaggerRecords(packetId, rows)
            == TaggerRecords(packetId, rows[..|rows| - 1]) + [MakeTagger(packetId, rows[|rows| - 1])]
  {
    var n := |rows| - 1;
    var a := TaggerRecords(packetId, rows);
    var b := TaggerRecords(packetId, rows[..n]) + [MakeTagger(packetId, rows[n])];
    assert |a| == |b|;
    forall i | 0 <= i < |a| ensures a[i] == b[i] {
      if i < n { assert rows[..n][i] == rows[i]; }
    }
  }

  lemma Lvl1BcosSnoc(packetId: int, rows: seq<TaggerRow>)
    requires |rows| > 0
    ensures var t := MakeTagger(packetId, rows[|rows| - 1]);
            Bcos(Lvl1Only(TaggerRecords(packetId, rows)))
            == Bcos(Lvl1Only(TaggerRecords(packetId, rows[..|rows| - 1])))
               + (if t.isLvl1 != 0 then [t.bco] else [])
  {
    var n := |rows| - 1;
    var t := MakeTagger(packetId, rows[n]);
    var prefix := TaggerRecords(packetId, rows[..n]);
    var h: seq<TaggerInfo> := if t.isLvl1 != 0 then [t] else [];
    TaggerRecordsSnoc(packetId, rows);
    assert TaggerRecords(packetId, rows) == prefix + [t];
    Lvl1OnlyAppend(prefix, t);
    assert Lvl1Only(prefix + [t]) == Lvl1Only(prefix) + h;
    BcosAppend(Lvl1Only(prefix), h);
    assert Bcos(h) == if t.isLvl1 != 0 then [t.bco] else [];
  }

  lemma {:induction false} Lvl1OnlyMembers(ts: seq<TaggerInfo>, t: TaggerInfo)
    requires t in Lvl1Only(ts)
    ensures t in ts && t.isLvl1 != 0
    decreases |ts|
  {
    if ts[0].isLvl1 != 0 && t == ts[0] {
    } else {
      Lvl1OnlyMembers(ts[1..], t);
    }
  }

  lemma {:induction false} Lvl1OnlyAppend(ts: seq<TaggerInfo>, t: TaggerInfo)
    ensures Lvl1Only(ts + [t]) == Lvl1Only(ts) + (if t.isLvl1 != 0 then [t] else [])
    decreases |ts|
  {
    if |ts| == 0 {
      assert ts + [t] == [t];
    } else {
      var h: seq<TaggerInfo> := if ts[0].isLvl1 != 0 then [ts[0]] else [];
      var u: seq<TaggerInfo> := if t.isLvl1 != 0 then [t] else [];
      assert (ts + [t])[0] == ts[0];
      assert (ts + [t])[1..] == ts[1..] + [t];
      Lvl1OnlyAppend(ts[1..], t);
      calc {
        Lvl1Only(ts + [t]);
        h + Lvl1Only(ts[1..] + [t]);
        h + (Lvl1Only(ts[1..]) + u);
        (h + Lvl1Only(ts[1..])) + u;
        Lvl1Only(ts) + u;
      }
    }
  }

  /** A row that is not a LVL1 tagger never contributes a candidate, and
      every candidate is the BCO of some LVL1 row of the table. */
  lemma CandidatesComeFromLvl1Rows(packetId: int, rows: seq<TaggerRow>, evalTagger: bool, b: u64)
    requires b in Collect(packetId, rows, evalTagger, true).lvl1Bcos
    ensures exists i :: 0 <= i < |rows| && MakeTagger(packetId, rows[i]).isLvl1 != 0
                         && MakeTagger(packetId, rows[i]).bco == b
  {
    var ts := TaggerRecords(packetId, rows);
    var l := Lvl1Only(ts);
    var k :| 0 <= k < |Bcos(l)| && Bcos(l)[k] == b;
    assert l[k] in l;
    Lvl1OnlyMembers(ts, l[k]);
    var i :| 0 <= i < |ts| && ts[i] == l[k];
    assert MakeTagger(packetId, rows[i]) == l[k];
  }
}

=== FILE: wrappers.dfy ===
/** An optional value: the peak scan reports the index of the peak, or
    nothing when no valid ADC value rises above the default of 0. */
module Wrappers {

  datatype Option<+T> = None | Some(value: T)
}
